=== FILE: README.md ===
# iFriend dashboard: access control and list state, in Dafny

This project models the decision logic of the iFriend administration
dashboard, a Next.js front end. It covers:

- the **permission algebra**: the catalog of nine module permissions, the
  any-of and all-of checks, missing permissions and permission-gated item
  filtering;
- the **route registry**: the nine menu routes, the landing page and the
  accessible-routes menu;
- the **page guard** that wraps every dashboard page: loading, the sign-in
  page, authentication, the public `/profile` pages, the registry match, the
  permission test, and the `isChecking` flag over successive effect runs;
- the **component and page wrappers**, which gate a component or a page on
  permissions;
- the **sign-in page** forwarding a signed-in user, and the **not-found
  page**'s "Go Back" button;
- the **roles table**: name search, five rows per page, row and header
  checkboxes, the bulk-delete and single-delete dialogs;
- the **notifications list**: ten rows per page, length-based "select all",
  the row toggles, the header checkbox and the pager;
- the **"Create Role" dialog**: access toggles, the submit guard, the reset
  after success, and visibility during the close animation.

Everything is modelled as pure functions over immutable values:

- permissions are `seq<string>`, compared by exact string equality;
- a router call (`replace`, `push`, `back`) is a returned value;
- the result of a service call (success, failure, thrown error) is a
  parameter.

Modules follow the source files:

| module | models |
|---|---|
| `Permissions` | `lib/permissions.ts` |
| `MenuRoutes` | `lib/menu-routes.ts` |
| `RouteGuard` | `components/protected-route.tsx` |
| `ProtectedComponent` | `components/root/protected-component.tsx` |
| `Landing` | `app/sign-in/page.tsx` and `app/not-found.tsx` |
| `RolesTable` | the roles table |
| `Notifications` | the notifications list |
| `CreateRole` | the "Create Role" dialog |

They share four helper modules:

- `Seqs`: JavaScript `filter`, `find`, checkbox toggles, and
  `Array.from(new Set(...))`;
- `Text`: `startsWith`, `toLowerCase`, `includes`, `trim`, `join`, and number
  formatting;
- `Paging`: `Math.ceil`, `slice` with its index clamping, and the page
  buttons;
- `Wrappers`: `Option`.

The model follows the code as written:

- The page guard matches a route by raw string prefix. `"/settingsX"`
  therefore selects the `/settings` route (`RouteGuard.RawPrefixMatch`,
  `RouteGuard.RawPrefixAllowed`). The match is not segment-aware.
- The page guard denies a matched route whose permission list is empty,
  because `.some` on an empty list is false (`RouteGuard.EmptyRequirementDenied`).
  The component wrapper grants access on an empty requirement
  (`ProtectedComponent.EmptyRequirementAsymmetry`).

## Model

| member | source | states |
|---|---|---|
| `Permissions.AllPermissions` | lib/permissions.ts:20-31 | the catalog has nine permission names, pairwise distinct, and every module's name is among them |
| `Permissions.PermissionOfInjective` | lib/permissions.ts:20-31 | distinct modules carry distinct permission names |
| `Permissions.GetModulePermissions` | lib/permissions.ts:37-47 | each module's group is exactly its one catalog permission |
| `Permissions.HasAnyPermission` | lib/permissions.ts:53-60 | true iff some required permission is held; false on an empty requirement |
| `Permissions.HasAllPermissions` | lib/permissions.ts:65-72 | true iff every required permission is held; true on an empty requirement |
| `Permissions.AllImpliesAny` | lib/permissions.ts:53-72 | for a non-empty requirement, holding all of it implies holding one of it |
| `Permissions.HasAnyMonotone` | lib/permissions.ts:53-60 | holding more permissions never turns an any-of check false |
| `Permissions.CanViewModule` | lib/permissions.ts:77-83 | a module is viewable iff its single catalog permission is held |
| `Permissions.ManagePermission` | lib/permissions.ts:94-96 | the first group member starting with `manage_`: no earlier member starts with it; none iff no member starts with it |
| `Permissions.CanManageModule` | lib/permissions.ts:88-100 | true iff the group has a `manage_` permission that the user holds |
| `Permissions.CanManageModuleNever` | lib/permissions.ts:20-31 | with this catalog no module can be managed by anyone |
| `Permissions.GetMissingPermissions` | lib/permissions.ts:114-121 | the required permissions not held, as an order-preserving subsequence, each as many times as it is required; empty iff all are held |
| `Permissions.FilterByPermissions` | lib/permissions.ts:127-137 | an order-preserving subsequence; an item is kept, as many times as it occurs, iff its requirement is absent or empty, or one required permission is held |
| `Permissions.UngatedAlwaysKept` | lib/permissions.ts:132-134 | items with an absent or empty requirement survive any filtering |
| `MenuRoutes.Hrefs` | lib/menu-routes.ts:20-66 | the registry's paths, position by position |
| `MenuRoutes.RegistryShape` | lib/menu-routes.ts:20-66 | nine routes, the first being `"/"` guarded by "Dashboard", each guarded by one permission |
| `MenuRoutes.SettingsRoute` | lib/menu-routes.ts:61-65 | the last route is `/settings`, guarded by "Settings" |
| `MenuRoutes.RegistryFollowsCatalog` | lib/menu-routes.ts:20-66 | the i-th route is guarded by the i-th catalog permission |
| `MenuRoutes.RegistryHrefsDistinct` | lib/menu-routes.ts:20-66 | route paths are pairwise distinct |
| `MenuRoutes.RegistryPrefixFree` | lib/menu-routes.ts:20-66 | apart from `"/"`, no route path is a prefix of another route's path |
| `MenuRoutes.NotPrefix` | lib/menu-routes.ts:20-66 | any two different route paths differ, and one other than `"/"` is not a prefix of the other |
| `MenuRoutes.FirstAccessibleIndex` | lib/menu-routes.ts:74-80 | the index of the earliest route whose permissions intersect the user's, unique, or none iff no route is accessible |
| `MenuRoutes.GetFirstAccessibleRoute` | lib/menu-routes.ts:73-85 | the earliest accessible route's path, `"/"` when none is accessible, always a registry path |
| `MenuRoutes.FirstAccessibleRouteScan` | lib/menu-routes.ts:73-85 | the loop returns the same path as the functional definition |
| `MenuRoutes.GetAccessibleRoutes` | lib/menu-routes.ts:92-98 | an order-preserving subsequence of the registry holding exactly the routes with a held permission |
| `MenuRoutes.FirstIsHeadOfAccessible` | lib/menu-routes.ts:73-98 | the landing path is the first menu entry's path, or `"/"` when the menu is empty |
| `MenuRoutes.AccessibleRoutesMonotone` | lib/menu-routes.ts:92-98 | more permissions give a menu that contains the old one in order |
| `MenuRoutes.NoPermissionsNoRoutes` | lib/menu-routes.ts:83-84 | with no permissions the menu is empty and the landing path is `"/"` |
| `RouteGuard.IsPublic` | components/protected-route.tsx:45-46 | a path is public iff it starts with `/profile` |
| `RouteGuard.MatchRoute` | components/protected-route.tsx:52-62 | the first route matching the path (`"/"` by equality, others by raw prefix), unique, or none iff no route matches |
| `RouteGuard.DecideIn` | components/protected-route.tsx:26-83 | waits iff loading; allows iff not loading and either on sign-in, or authenticated and public or holding a permission of the first match; otherwise sends an unauthenticated user to sign-in and an authenticated one to not-found |
| `RouteGuard.Decide` | components/protected-route.tsx:52-78 | as mounted on the registry, a signed-in user reaches the home page iff they hold "Dashboard", and is otherwise sent to not-found |
| `RouteGuard.HomeNeedsDashboard` | components/protected-route.tsx:52-78 | the home page is guarded by the first registry route alone |
| `RouteGuard.EmptyRequirementDenied` | components/protected-route.tsx:70-78 | a matched route with an empty permission list leads to not-found |
| `RouteGuard.PrefixesComparable` | components/protected-route.tsx:58 | two prefixes of one path are prefixes of each other |
| `RouteGuard.RegistryMatchUnique` | components/protected-route.tsx:52-62 | at most one registry route matches any path |
| `RouteGuard.MatchUnderRoute` | components/protected-route.tsx:52-62 | a path under a non-root route's path selects that route |
| `RouteGuard.RawPrefixMatch` | components/protected-route.tsx:58 | `/settingsX` selects the `/settings` route |
| `RouteGuard.RawPrefixAllowed` | components/protected-route.tsx:58-82 | a user holding "Settings" is let through to `/settingsX` |
| `RouteGuard.MatchedRouteDecides` | components/protected-route.tsx:70-82 | past the earlier checks, the first match's permissions alone decide between allow and not-found |
| `RouteGuard.SettingsXUnderSettings` | components/protected-route.tsx:58 | `/settingsX` starts with `/settings` |
| `RouteGuard.SettingsXNotPublic` | components/protected-route.tsx:45-46 | `/settingsX` is not a public path |
| `RouteGuard.RootMatchesOnlyItself` | components/protected-route.tsx:54-56 | the home route matches only the path `"/"` |
| `RouteGuard.TwoRouteEarlyExits` | components/protected-route.tsx:28-42 | on a two-route registry: loading waits; signed out goes to sign-in |
| `RouteGuard.TwoRouteSubpathAllowed` | components/protected-route.tsx:58-82 | on a two-route registry a sub-page of a route is allowed with that route's permission |
| `RouteGuard.TwoRouteDenials` | components/protected-route.tsx:65-78 | on a two-route registry a wrong permission and an unknown path both lead to not-found |
| `RouteGuard.Step` | components/protected-route.tsx:24-83 | `isChecking` is only ever cleared; loading and a signed-out redirect leave it as it was; the sign-in page clears it |
| `RouteGuard.NeverRechecks` | components/protected-route.tsx:24-83 | once cleared, `isChecking` stays cleared over any sequence of effect runs |
| `RouteGuard.CheckingUntilAllowed` | components/protected-route.tsx:24-94 | starting from true, `isChecking` stays set exactly while no effect run has allowed |
| `RouteGuard.Run` | components/protected-route.tsx:24-83 | effect runs never set `isChecking` again; an allowing first run clears it for good |
| `RouteGuard.ChildrenShownOnceAllowed` | components/protected-route.tsx:85-94 | mounted with `isChecking` set, the guard shows its children iff some effect run has allowed |
| `ProtectedComponent.RequiredPerms` | components/root/protected-component.tsx:40 | a non-empty `permission` alone is required; otherwise `permissions`, or nothing |
| `ProtectedComponent.HasAccess` | components/root/protected-component.tsx:43-44 | access iff nothing is required or one requirement is held |
| `ProtectedComponent.ComponentRender` | components/root/protected-component.tsx:31-51 | children iff access; otherwise the fallback, or nothing when there is no fallback |
| `ProtectedComponent.UnrestrictedComponentShown` | components/root/protected-component.tsx:40-44 | a component without requirements is shown to every user |
| `ProtectedComponent.EmptyRequirementAsymmetry` | components/root/protected-component.tsx:43-44 | an empty requirement shows a component, yet the page guard denies a route with that requirement |
| `ProtectedComponent.PageRender` | components/root/protected-component.tsx:85-126 | signed out pushes sign-in first; signed in without access pushes `redirectTo` (default `"/"`); children render iff signed in with access, exactly when nothing is pushed |
| `Landing.AuthPage` | app/sign-in/page.tsx:9-27 | redirects iff signed in with permissions, to the first accessible route; shows the sign-in form iff signed out |
| `Landing.SignedInWithoutPermissionsStalls` | app/sign-in/page.tsx:15-24 | a signed-in user without permissions sees nothing and is not redirected |
| `Landing.HandleGoBack` | app/not-found.tsx:19-28 | goes back iff signed in with permissions; otherwise pushes sign-in |
| `Landing.GoBackMatchesSignIn` | app/not-found.tsx:19-28 | "go back" uses history exactly for the users the sign-in page forwards to a dashboard page; the others go to sign-in |
| `Landing.RegistryPathsOrdinary` | lib/menu-routes.ts:20-66 | no registry path is the sign-in path or a `/profile` path |
| `Landing.OwnPathMatches` | components/protected-route.tsx:52-62 | the guard selects each registry route for its own path |
| `Landing.LandingPageAllowed` | app/sign-in/page.tsx:15-18 | when some route is accessible, the page the sign-in page forwards to is one the guard allows |
| `Landing.FallbackLandingDenied` | app/sign-in/page.tsx:15-18 | permissions outside the registry forward to `"/"`, which the guard sends to not-found |
| `Seqs.Filter` | lib/menu-routes.ts:93-97 | `filter`: an order-preserving subsequence holding exactly the passing elements; the whole list iff all pass |
| `Seqs.FilterCount` | lib/menu-routes.ts:93-97 | `filter` keeps a passing element as many times as it occurs and drops every copy of a failing one |
| `Seqs.FindFirst` | components/protected-route.tsx:52 | `find`: the index of the first element that passes, or none iff none passes |
| `Seqs.FilterHeadIsFirst` | lib/menu-routes.ts:73-98 | a filtered list is non-empty iff `find` succeeds, and then its head is the found element |
| `Seqs.FilterMonotone` | lib/menu-routes.ts:92-98 | a weaker filter keeps a super-sequence |
| `Seqs.Remove` | features/settings/components/roles-table.tsx:117 | `filter(y => y !== x)` removes every copy of `x` and keeps every other element, with its multiplicity, in order |
| `Seqs.Toggle` | features/settings/components/create-role-card.tsx:43-47 | removes every copy of a present element or appends an absent one; every other element keeps its multiplicity |
| `Seqs.ToggleTwice` | features/settings/components/create-role-card.tsx:43-47 | toggling an absent element twice restores the list |
| `Seqs.Dedup` | features/settings/components/roles-table.tsx:124 | `Array.from(new Set(s))`: duplicate-free with the same elements, ordered by first occurrence; a list without duplicates is unchanged |
| `Seqs.DedupExtends` | features/settings/components/roles-table.tsx:124 | de-duplicating `prev + ids` keeps a duplicate-free `prev` first and appends the new ids |
| `Text.Lower` | features/settings/components/roles-table.tsx:101 | same length, letters A-Z lowered, no upper-case letter left |
| `Text.Includes` | features/settings/components/roles-table.tsx:101 | true iff the needle occurs at some position |
| `Text.Trim` | features/settings/components/create-role-card.tsx:75 | empty iff the input is all white space; otherwise no white space at either end; the input with only white space before and after it |
| `Text.Join` | features/settings/components/roles-table.tsx:312 | `join(", ")` of no part is empty; of one, two or three parts it is those parts with the separator between them |
| `Text.JoinSnoc` | features/settings/components/roles-table.tsx:312 | joining one more part adds the separator and that part at the end |
| `Text.NatToString` | features/settings/components/roles-table.tsx:306 | a non-empty run of decimal digits whose decimal value is the number, without a leading zero; one digit iff below ten |
| `Paging.CeilDiv` | features/notifications/notificatioms-content.tsx:39 | `Math.ceil(n / d)`: the fewest groups of `d` that hold `n`; zero iff `n` is zero |
| `Paging.JsSlice` | features/notifications/notificatioms-content.tsx:42 | `slice(start, end)` with JavaScript's clamping; equals the Dafny slice on in-range bounds |
| `Paging.Page` | features/settings/components/roles-table.tsx:108 | page `p` has at most `size` rows: those from `(p-1)*size` to `p*size`, clamped to the list |
| `Paging.PageStartsAt` | features/notifications/notificatioms-content.tsx:40-42 | a non-empty page is the run of the list that starts at `(p-1)*size`; a page starting inside the list holds `size` rows or the rest of the list |
| `Paging.PageNonEmpty` | features/settings/components/roles-table.tsx:106-108 | with no superfluous pages, every page from 1 to the count shows a row |
| `Paging.ConcatPagesIsPrefix` | features/settings/components/roles-table.tsx:108 | the first `c` pages laid end to end are the first `c*size` rows |
| `Paging.PagesCoverAll` | features/settings/components/roles-table.tsx:106-108 | enough pages to hold the list reassemble it exactly |
| `Paging.PrevPage` | features/settings/components/roles-table.tsx:259 | Previous never goes below 1, steps back from any later page and stays at 1 from page 1 or below |
| `Paging.NextPage` | features/settings/components/roles-table.tsx:281 | Next never passes the last page, steps forward from any earlier page and stays at the last page from there or beyond |
| `Paging.PrevNextStayInRange` | features/settings/components/roles-table.tsx:259-282 | Previous and Next keep a page in `[1, total]` |
| `RolesTable.FilteredRoles` | features/settings/components/roles-table.tsx:101 | an order-preserving subsequence holding exactly the named roles whose lower-cased name contains the lower-cased search |
| `RolesTable.EmptySearchKeepsNamed` | features/settings/components/roles-table.tsx:101 | an empty search keeps every named role and drops the unnamed ones |
| `RolesTable.PageCount` | features/settings/components/roles-table.tsx:106 | at least one page; the fewest pages of five that hold the rows |
| `RolesTable.CurrentPage` | features/settings/components/roles-table.tsx:107 | the requested page clamped to the last page; at least 1 for a page of at least 1 |
| `RolesTable.PaginatedRoles` | features/settings/components/roles-table.tsx:108 | at most five rows, the run starting at the current page's offset, exactly five or the rest of the list, never empty for a non-empty list |
| `RolesTable.CurrentPageNonEmpty` | features/settings/components/roles-table.tsx:106-108 | the clamped current page of a non-empty list shows a row |
| `RolesTable.ResetPageShowsFirstRows` | features/settings/components/roles-table.tsx:104-108 | after the reset to page 1 the table shows the first five rows |
| `RolesTable.PagesReassemble` | features/settings/components/roles-table.tsx:106-108 | the pages 1 to `pageCount` give back the filtered list |
| `RolesTable.ToggleSelect` | features/settings/components/roles-table.tsx:114-119 | checking leaves a list that already holds the id as it is and otherwise appends it; unchecking removes every copy of the id; every other id keeps its multiplicity; no duplicates introduced |
| `RolesTable.ToggleSelectSettles` | features/settings/components/roles-table.tsx:114-119 | repeating a toggle changes nothing; checking then unchecking a fresh id restores the selection |
| `RolesTable.Ids` | features/settings/components/roles-table.tsx:123 | `map(r => r.id)`, position by position |
| `RolesTable.ToggleSelectAll` | features/settings/components/roles-table.tsx:121-129 | checked: the duplicate-free union, ordered by first occurrence in the prior selection followed by the filtered ids; unchecked: every copy of a filtered id removed, every other id kept with its multiplicity and order |
| `RolesTable.SelectedInView` | features/settings/components/roles-table.tsx:110 | the filtered rows whose id is selected, in order |
| `RolesTable.AllSelected` | features/settings/components/roles-table.tsx:111 | a non-empty filtered list with every row selected |
| `RolesTable.SomeSelected` | features/settings/components/roles-table.tsx:112 | some filtered row selected and some not; never together with all selected |
| `RolesTable.Header` | features/settings/components/roles-table.tsx:201 | checked iff all selected, indeterminate iff some selected, unchecked iff none selected |
| `RolesTable.HeaderAfterSelectAll` | features/settings/components/roles-table.tsx:121-129 | the header checks after select-all on a non-empty list and unchecks after deselect-all |
| `RolesTable.UncheckKeepsHidden` | features/settings/components/roles-table.tsx:126-127 | deselect-all keeps selections outside the current search |
| `RolesTable.DeleteSelectedShown` | features/settings/components/roles-table.tsx:183 | the bulk button appears only with at least two selected rows |
| `RolesTable.BulkDeleteOpen` | features/settings/components/roles-table.tsx:131-134 | opening with nothing selected changes nothing; otherwise the dialog opens |
| `RolesTable.ShownButtonOpens` | features/settings/components/roles-table.tsx:131-134 | the visible bulk button always opens the dialog |
| `RolesTable.BulkDeleteConfirm` | features/settings/components/roles-table.tsx:136-151 | no request and no change on an empty selection; otherwise the whole selection is sent and the dialog closes; the selection clears iff the delete succeeds |
| `RolesTable.RoleToDelete` | features/settings/components/roles-table.tsx:100 | a role with the pending id and no earlier role with it (the first), or none iff no role has it |
| `RolesTable.DeleteTitle` | features/settings/components/roles-table.tsx:293 | "Delete " followed by the role's name, or "Delete role" when the role or its name is missing |
| `RolesTable.DeleteConfirm` | features/settings/components/roles-table.tsx:70-84 | a missing or empty id sends nothing and changes nothing; otherwise the one id is sent and the pending id cleared |
| `RolesTable.DeleteDialogOpen` | features/settings/components/roles-table.tsx:291 | the single-delete dialog is open iff an id is pending |
| `RolesTable.DeleteConfirmCloses` | features/settings/components/roles-table.tsx:70-84 | confirming a picked role closes the dialog whatever the outcome |
| `RolesTable.BulkDeleteTitle` | features/settings/components/roles-table.tsx:306 | "Delete ", the count in decimal, then " selected role" for a count of 1 and " selected roles" otherwise, and nothing more |
| `RolesTable.NamesOfMembers` | features/settings/components/roles-table.tsx:308-311 | a name is listed iff it belongs to a selected role and is non-empty |
| `RolesTable.SelectedNames` | features/settings/components/roles-table.tsx:308-311 | at most one name per role, all non-empty, exactly the names of selected roles |
| `RolesTable.NamesOfAppend` | features/settings/components/roles-table.tsx:308-311 | the names of two runs of roles are their names one after the other |
| `RolesTable.SelectedNamesAppend` | features/settings/components/roles-table.tsx:308-311 | the listed names follow the role list's order |
| `RolesTable.BulkDeleteDescription` | features/settings/components/roles-table.tsx:307-314 | the fallback text without names; otherwise the first one, two or three names joined by ", ", followed by ", ..." iff there are more than three |
| `Notifications.Ids` | features/notifications/notificatioms-content.tsx:48 | `map(n => n.id)`, position by position |
| `Notifications.TotalPages` | features/notifications/notificatioms-content.tsx:39 | the fewest pages of ten that hold the list; zero iff the list is empty |
| `Notifications.PagerHiddenForOnePage` | features/notifications/notificatioms-content.tsx:180 | the pager shows iff there are more than ten notifications |
| `Notifications.CurrentNotifications` | features/notifications/notificatioms-content.tsx:40-42 | at most ten rows, the run starting at `(currentPage-1)*10`, exactly ten or the rest of the list, never empty for a listed page |
| `Notifications.ListedPageNonEmpty` | features/notifications/notificatioms-content.tsx:39-42 | each page from 1 to `totalPages` shows a row |
| `Notifications.PagesReassemble` | features/notifications/notificatioms-content.tsx:39-42 | the pages 1 to `totalPages` give back the list |
| `Notifications.ToggleSelectAll` | features/notifications/notificatioms-content.tsx:44-50 | clears when the selection is as long as the list; otherwise every id in list order |
| `Notifications.ToggleSelectRow` | features/notifications/notificatioms-content.tsx:52-58 | removes every copy of a selected id or appends an unselected one; every other id keeps its multiplicity |
| `Notifications.ToggleRowTwice` | features/notifications/notificatioms-content.tsx:52-58 | toggling an unselected row twice restores the selection |
| `Notifications.HeaderChecked` | features/notifications/notificatioms-content.tsx:93 | checked iff the selection is as long as a non-empty list |
| `Notifications.TogglesKeepValid` | features/notifications/notificatioms-content.tsx:44-58 | with distinct ids, both toggles keep the selection duplicate-free and made of listed ids |
| `Notifications.SubsetSameSize` | features/notifications/notificatioms-content.tsx:45 | a subset as large as its superset equals it |
| `Notifications.LengthMeansAllSelected` | features/notifications/notificatioms-content.tsx:45 | on such a selection, the length test holds iff every row is selected |
| `Notifications.LengthTestMisfires` | features/notifications/notificatioms-content.tsx:45 | with a stale id the length test clears and checks the header while a row is unselected |
| `Notifications.PagerStaysInRange` | features/notifications/notificatioms-content.tsx:185-209 | Previous and Next keep the page within `[1, totalPages]` |
| `CreateRole.ToggleAccess` | features/settings/components/create-role-card.tsx:42-48 | removes every copy of a selected option or appends an unselected one; every other option keeps its multiplicity; no duplicates introduced |
| `CreateRole.ToggleAccessTwice` | features/settings/components/create-role-card.tsx:42-48 | toggling an unselected option twice restores the selection |
| `CreateRole.HandleAdd` | features/settings/components/create-role-card.tsx:74-94 | sends nothing iff the name is blank or no access is checked; sends the trimmed name and the selection; success resets the form and starts closing, anything else leaves it |
| `CreateRole.SentNameIsTrimmed` | features/settings/components/create-role-card.tsx:75-80 | the name sent has no white space at either end and is a piece of what was typed |
| `CreateRole.ResetFormRejected` | features/settings/components/create-role-card.tsx:81-85 | after a successful create a second submit sends nothing |
| `CreateRole.Renders` | features/settings/components/create-role-card.tsx:96 | renders nothing iff closed and not animating |
| `CreateRole.ScrollLocked` | features/settings/components/create-role-card.tsx:50-59 | page scrolling is locked iff open or animating |
| `CreateRole.ScrollLockedIffRendered` | features/settings/components/create-role-card.tsx:50-96 | scrolling is locked exactly while the dialog is on screen |
| `CreateRole.StartClose` | features/settings/components/create-role-card.tsx:35 | closing starts the animation and leaves `open` alone |
| `CreateRole.FinishClose` | features/settings/components/create-role-card.tsx:36-39 | after the timer the dialog is closed and no longer animating |
| `CreateRole.CloseAnimates` | features/settings/components/create-role-card.tsx:34-40 | a closing dialog stays on screen, with scrolling locked, during the animation; after it the dialog is gone and scrolling is unlocked |

## Left out

- The auth context that produces `isLoading`, `isAuthenticated` and `permissions` is not part of this model. These are inputs, so login and logout transitions are not modelled.
- Router navigation is not performed. `router.replace`, `push` and `back` are returned values (`Outcome`, `PageDecision`, `SignInView`, `GoBack`).
- The services (`getAllRoles`, `deleteRoles`, `createRole`, `getAllPermissions`) are not modelled. Their HTTP I/O is replaced by an outcome parameter (`DeleteOutcome`, `CreateOutcome`).
- The roles table's `reload` after a delete is not modelled. The role list is an input.
- Toasts, `console` output and the unauthorized message are left out. They have no effect on state.
- The `submitting` flag of the create dialog is left out. It disables Add while a request is pending; the model treats each `HandleAdd` as finishing before the next starts.
- `setTimeout` is modelled as two separate steps (`StartClose`, `FinishClose`) with no clock.
- The body-overflow effect is modelled only as the `ScrollLocked` condition. Its clean-up on unmount is not modelled.
- React re-rendering and `useState` plumbing are left out. Each handler is a function from the old state to the new one.
- The effect that resets the roles table to page 1 is modelled only through `RolesTable.ResetPageShowsFirstRows`. The trigger on search and list-length changes is not modelled.
- Markup and presentational components, the image-crop dialog, `lib/utils.ts` and the query services are left out. They contain no decision logic.
- Text.Lower: lowers the ASCII letters A-Z only. JavaScript's `toLowerCase` also folds other Unicode letters.
- Text.Trim: strips ASCII white space only (space, tab, line feed, carriage return, vertical tab, form feed). JavaScript's `trim` also strips Unicode spaces and line terminators.
- Paging.Page: for page numbers below 1, states nothing beyond what JavaScript's negative slice indices give. Neither caller can produce such a page.
- RolesTable.PaginatedRoles: requires `page >= 1`. The page state starts at 1 and every button keeps it at or above 1.
- Notifications.ToggleSelectAll and Notifications.HeaderChecked: compare lengths as the source does. Only `Notifications.LengthMeansAllSelected` ties this to "every row selected", and only for selections built by the toggles.

=== FILE: create_role.dfy ===
/**
 * The "Create Role" dialog of `features/settings/components/create-role-card.tsx`:
 * the access checkboxes, the submit guard, what is sent, what happens to the
 * form afterwards, and when the dialog is on screen. The create request
 * itself belongs to the roles service; its result is an input here.
 */
module CreateRole {
  import opened Wrappers
  import opened Seqs
  import opened Text

  /** `toggleAccess(option)`: drop the option if selected, else append it. */
  function ToggleAccess(selected: seq<string>, option: string): (r: seq<string>)
    ensures option in r <==> option !in selected
    ensures forall x :: x != option ==> (x in r <==> x in selected)
    ensures option !in selected ==> |r| == |selected| + 1 && r[..|selected|] == selected
    ensures option in selected ==> IsSubseq(r, selected)
    ensures NoDup(selected) ==> NoDup(r)
    ensures forall x :: x != option ==> Count(r, x) == Count(selected, x)
  {
    Toggle(selected, option)
  }

  /** Toggling an unselected option twice returns the original selection. */
  lemma ToggleAccessTwice(selected: seq<string>, option: string)
    requires option !in selected
    ensures ToggleAccess(ToggleAccess(selected, option), option) == selected
  {
    ToggleTwice(selected, option);
  }

  /** The form's fields: the typed role name and the checked permission ids. */
  datatype Form = Form(roleName: string, selectedAccess: seq<string>)

  const EmptyForm: Form := Form("", [])

  /** `createRole(name, permissionIds)`. */
  datatype CreateRequest = CreateRequest(name: string, permissionIds: seq<string>)

  /** How the request ended: `success: true`, `success: false`, or a thrown error. */
  datatype CreateOutcome = Created | NotCreated | Threw

  /** What `handleAdd` does: the request sent, the form afterwards, and whether closing started. */
  datatype AddStep = AddStep(request: Option<CreateRequest>, form: Form, closing: bool)

  /** `handleAdd`, given how the request ends. */
  function HandleAdd(form: Form, outcome: CreateOutcome): (s: AddStep)
    ensures s.request.None? <==> AllSpace(form.roleName) || |form.selectedAccess| == 0
    ensures s.request.Some? ==>
      && s.request.value.name == Trim(form.roleName)
      && |s.request.value.name| > 0
      && s.request.value.permissionIds == form.selectedAccess
    ensures s.request.Some? && outcome == Created ==> s.form == EmptyForm && s.closing
    ensures s.request.None? || outcome != Created ==> s.form == form && !s.closing
  {
    var name := Trim(form.roleName);
    if |name| == 0 || |form.selectedAccess| == 0 then AddStep(None, form, false)
    else
      var req := Some(CreateRequest(name, form.selectedAccess));
      if outcome == Created then AddStep(req, EmptyForm, true)
      else AddStep(req, form, false)
  }

  /** The name sent has no surrounding white space and is a piece of what was typed. */
  lemma SentNameIsTrimmed(form: Form, outcome: CreateOutcome)
    requires HandleAdd(form, outcome).request.Some?
    ensures var n := HandleAdd(form, outcome).request.value.name;
      && !IsSpace(n[0]) && !IsSpace(n[|n| - 1])
      && exists a :: OccursAt(form.roleName, n, a)
  {
  }

  /** After a successful create a second submit sends nothing until the form is filled again. */
  lemma ResetFormRejected(form: Form, outcome: CreateOutcome)
    requires HandleAdd(form, Created).request.Some?
    ensures HandleAdd(HandleAdd(form, Created).form, outcome).request.None?
  {
  }

  /** The dialog's visibility state: the `open` prop and the close animation flag. */
  datatype Dialog = Dialog(open: bool, isClosing: bool)

  /** The component returns `null` when `!open && !isClosing`. */
  function Renders(d: Dialog): (b: bool)
    ensures !b <==> !d.open && !d.isClosing
  {
    d.open || d.isClosing
  }

  /** The body-scroll effect hides overflow when `open || isClosing`. */
  function ScrollLocked(d: Dialog): (b: bool)
    ensures b <==> d.open || d.isClosing
  {
    d.open || d.isClosing
  }

  /** The page stops scrolling exactly while the dialog is on screen. */
  lemma ScrollLockedIffRendered(d: Dialog)
    ensures ScrollLocked(d) <==> Renders(d)
  {
  }

  /** `handleClose`, first half: the close animation starts. */
  function StartClose(d: Dialog): (e: Dialog)
    ensures e.isClosing && e.open == d.open
  {
    d.(isClosing := true)
  }

  /** `handleClose`, after the 200 ms timer: the parent closes it and the animation ends. */
  function FinishClose(d: Dialog): (e: Dialog)
    ensures !e.open && !e.isClosing
  {
    Dialog(false, false)
  }

  /** A closing dialog stays on screen during the animation and is gone after it. */
  lemma CloseAnimates(d: Dialog)
    ensures Renders(StartClose(d))
    ensures !Renders(FinishClose(StartClose(d)))
    ensures ScrollLocked(StartClose(d)) && !ScrollLocked(FinishClose(StartClose(d)))
  {
  }
}

=== FILE: landing.dfy ===
/**
 * The two pages that send a user somewhere else: the sign-in page
 * (`app/sign-in/page.tsx`), which forwards an already signed-in user to
 * the landing page, and the not-found page (`app/not-found.tsx`), whose
 * "Go Back" button goes back in history or to the sign-in page.
 */
module Landing {
  import opened Wrappers
  import opened Text
  import opened Permissions
  import opened MenuRoutes
  import opened RouteGuard

  /** The sign-in page's effect (`router.replace`) and whether it shows the sign-in form. */
  datatype SignInView = SignInView(redirect: Option<string>, showsSignInContent: bool)

  /** `AuthPage`: forward a signed-in user who has permissions; render nothing for any signed-in user. */
  function AuthPage(isAuthenticated: bool, permissions: seq<Permission>): (v: SignInView)
    ensures v.redirect.Some? <==> isAuthenticated && |permissions| > 0
    ensures v.redirect.Some? ==> v.redirect.value == GetFirstAccessibleRoute(permissions)
    ensures v.redirect.Some? ==> v.redirect.value in Hrefs()
    ensures v.showsSignInContent <==> !isAuthenticated
  {
    var redirect :=
      if isAuthenticated && |permissions| > 0 then Some(GetFirstAccessibleRoute(permissions))
      else None;
    SignInView(redirect, !isAuthenticated)
  }

  /** A signed-in user with no permissions sees an empty page and stays on it. */
  lemma SignedInWithoutPermissionsStalls()
    ensures AuthPage(true, []) == SignInView(None, false)
  {
  }

  /** The navigation `handleGoBack` performs. */
  datatype GoBack = HistoryBack | Push(path: string)

  /** `handleGoBack`: back in history for a signed-in user with permissions, otherwise to sign-in. */
  function HandleGoBack(isAuthenticated: bool, permissions: seq<Permission>): (g: GoBack)
    ensures g == HistoryBack <==> isAuthenticated && |permissions| > 0
    ensures g != HistoryBack ==> g == Push(SignInPath)
    ensures !isAuthenticated ==> g == Push(SignInPath)
  {
    if isAuthenticated && |permissions| > 0 then HistoryBack else Push(SignInPath)
  }

  /**
   * "Go back" returns through history exactly for the users the sign-in page
   * would forward to a dashboard page; everyone else is sent to sign in.
   */
  lemma GoBackMatchesSignIn(isAuthenticated: bool, permissions: seq<Permission>)
    ensures HandleGoBack(isAuthenticated, permissions) == HistoryBack <==>
      AuthPage(isAuthenticated, permissions).redirect.Some?
    ensures HandleGoBack(isAuthenticated, permissions) != HistoryBack ==>
      AuthPage(isAuthenticated, permissions).redirect.None?
  {
  }

  /** No registry path is the sign-in path or a public `/profile` path. */
  lemma RegistryPathsOrdinary(i: nat)
    requires i < |Registry|
    ensures Registry[i].href != SignInPath
    ensures !StartsWith(Registry[i].href, "/profile")
  {
    var h := Registry[i].href;
    if i == 0 {
      assert |h| < |SignInPath|;
    } else if i == 3 {
      MismatchNotPrefix(h, "/profile", 1);
      MismatchNotPrefix(h, SignInPath, 2);
    } else if i == 4 {
      MismatchNotPrefix(h, "/profile", 2);
      MismatchNotPrefix(h, SignInPath, 1);
    } else if i == 8 {
      MismatchNotPrefix(h, "/profile", 1);
      MismatchNotPrefix(h, SignInPath, 2);
    } else {
      MismatchNotPrefix(h, "/profile", 1);
      MismatchNotPrefix(h, SignInPath, 1);
    }
  }

  /** The route guard selects each registry route for its own path. */
  lemma OwnPathMatches(i: nat)
    requires i < |Registry|
    ensures MatchRoute(Registry, Registry[i].href) == Some(i)
  {
    if i == 0 {
      assert FirstMatchAt(Registry, RootPath, 0);
    } else {
      MatchUnderRoute(Registry[i].href, i);
    }
  }

  /**
   * When some route is accessible, the page the sign-in page forwards to is
   * one the route guard lets through.
   */
  lemma LandingPageAllowed(permissions: seq<Permission>, k: nat)
    requires k < |Registry| && HasAnyPermission(permissions, Registry[k].requiredPermissions)
    ensures AuthPage(true, permissions).redirect.Some?
    ensures Decide(GuardInput(AuthPage(true, permissions).redirect.value, false, true, permissions)) == Allow
  {
    var idx := FirstAccessibleIndex(Registry, permissions);
    var i := idx.value;
    var href := Registry[i].href;
    assert GetFirstAccessibleRoute(permissions) == href;
    RegistryPathsOrdinary(i);
    OwnPathMatches(i);
    assert FirstMatchAt(Registry, href, i);
  }

  /**
   * When the user holds permissions but none of the registry's, the sign-in
   * page forwards to `"/"`, which the route guard then sends to not-found.
   */
  lemma FallbackLandingDenied(permissions: seq<Permission>)
    requires |permissions| > 0
    requires forall i :: 0 <= i < |Registry| ==> !HasAnyPermission(permissions, Registry[i].requiredPermissions)
    ensures AuthPage(true, permissions).redirect == Some(RootPath)
    ensures Decide(GuardInput(RootPath, false, true, permissions)) == Replace(NotFoundPath)
  {
    var href := GetFirstAccessibleRoute(permissions);
    assert href == RootPath;
    assert AuthPage(true, permissions).redirect == Some(href);
    RegistryPathsOrdinary(0);
    OwnPathMatches(0);
    MatchedRouteDecides(Registry, GuardInput(RootPath, false, true, permissions), 0);
  }
}

=== FILE: menu_routes.dfy ===
/**
 * The ordered route registry of `lib/menu-routes.ts` and its two queries:
 * the first accessible route, used by the sign-in page, and the accessible
 * routes, the same filter the sidebar applies. Registry order is load-bearing: it picks the landing page.
 */
module MenuRoutes {
  import opened Wrappers
  import opened Seqs
  import opened Permissions

  datatype MenuRoute = MenuRoute(name: string, href: string, requiredPermissions: seq<Permission>)

  /** The home path, also the fallback landing page. */
  const RootPath: string := "/"

  /** `MENU_ROUTES`, in source order. */
  const Registry: seq<MenuRoute> := [
    MenuRoute("Dashboard", "/", [PermissionOf(Dashboard)]),
    MenuRoute("Revenues", "/revenues", [PermissionOf(Revenue)]),
    MenuRoute("Analysis", "/analysis", [PermissionOf(Analysis)]),
    MenuRoute("Subscriptions Management", "/subscriptions", [PermissionOf(Subscription)]),
    MenuRoute("Payment Methods", "/payment", [PermissionOf(Payment)]),
    MenuRoute("Users Management", "/users-management", [PermissionOf(Users)]),
    MenuRoute("Notifications", "/notifications", [PermissionOf(Notification)]),
    MenuRoute("Feedback", "/feedback", [PermissionOf(Feedback)]),
    MenuRoute("Settings", "/settings", [PermissionOf(Settings)])
  ]

  /** The registry's paths, in order. */
  function Hrefs(): (hs: seq<string>)
    ensures |hs| == |Registry|
    ensures forall i :: 0 <= i < |hs| ==> hs[i] == Registry[i].href
  {
    seq(|Registry|, i requires 0 <= i < |Registry| => Registry[i].href)
  }

  /** The access test shared by both queries: one of the route's permissions is held. */
  function AccessibleTo(user: seq<Permission>): MenuRoute -> bool {
    (route: MenuRoute) => HasAnyPermission(user, route.requiredPermissions)
  }

  /** Route `i` is the earliest route in `routes` that `user` can access. */
  predicate FirstAccessibleAt(routes: seq<MenuRoute>, user: seq<Permission>, i: int) {
    && 0 <= i < |routes|
    && HasAnyPermission(user, routes[i].requiredPermissions)
    && forall j :: 0 <= j < i ==> !HasAnyPermission(user, routes[j].requiredPermissions)
  }

  /** Index of the earliest route of `routes` that `user` can access. */
  function FirstAccessibleIndex(routes: seq<MenuRoute>, user: seq<Permission>): (r: Option<nat>)
    ensures r.Some? ==> FirstAccessibleAt(routes, user, r.value)
    ensures r.Some? ==> forall i :: FirstAccessibleAt(routes, user, i) ==> i == r.value
    ensures r.None? <==> forall i :: 0 <= i < |routes| ==> !HasAnyPermission(user, routes[i].requiredPermissions)
  {
    var r := FindFirst(AccessibleTo(user), routes);
    if r.Some? then
      assert FirstAccessibleAt(routes, user, r.value);
      r
    else
      r
  }

  /** `getFirstAccessibleRoute(user)`: the earliest accessible route's path, else `"/"`. */
  function GetFirstAccessibleRoute(user: seq<Permission>): (href: string)
    ensures forall i :: FirstAccessibleAt(Registry, user, i) ==> href == Registry[i].href
    ensures (forall i :: 0 <= i < |Registry| ==> !HasAnyPermission(user, Registry[i].requiredPermissions))
      ==> href == RootPath
    ensures href in Hrefs()
  {
    var hs := Hrefs();
    match FirstAccessibleIndex(Registry, user)
    case None =>
      assert hs[0] == RootPath;
      RootPath
    case Some(i) =>
      assert hs[i] == Registry[i].href;
      Registry[i].href
  }

  /** The `for … of MENU_ROUTES` loop of `getFirstAccessibleRoute`, step by step. */
  method FirstAccessibleRouteScan(user: seq<Permission>) returns (href: string)
    ensures href == GetFirstAccessibleRoute(user)
  {
    var i := 0;
    while i < |Registry|
      invariant 0 <= i <= |Registry|
      invariant forall j :: 0 <= j < i ==> !HasAnyPermission(user, Registry[j].requiredPermissions)
    {
      if HasAnyPermission(user, Registry[i].requiredPermissions) {
        assert FirstAccessibleAt(Registry, user, i);
        return Registry[i].href;
      }
      i := i + 1;
    }
    return RootPath;
  }

  /** `getAccessibleRoutes(user)`: the accessible routes in registry order. */
  function GetAccessibleRoutes(user: seq<Permission>): (rs: seq<MenuRoute>)
    ensures IsSubseq(rs, Registry)
    ensures forall r :: r in rs <==>
      (r in Registry && exists p :: p in r.requiredPermissions && p in user)
  {
    Filter(AccessibleTo(user), Registry)
  }

  /** The landing page is the first entry of the menu; with an empty menu it is `"/"`. */
  lemma FirstIsHeadOfAccessible(user: seq<Permission>)
    ensures |GetAccessibleRoutes(user)| > 0 ==>
      GetFirstAccessibleRoute(user) == GetAccessibleRoutes(user)[0].href
    ensures |GetAccessibleRoutes(user)| == 0 ==> GetFirstAccessibleRoute(user) == RootPath
  {
    FilterHeadIsFirst(AccessibleTo(user), Registry);
  }

  /** Granting more permissions only adds menu entries, never reorders or drops them. */
  lemma AccessibleRoutesMonotone(user: seq<Permission>, more: seq<Permission>)
    requires forall p :: p in user ==> p in more
    ensures IsSubseq(GetAccessibleRoutes(user), GetAccessibleRoutes(more))
  {
    FilterMonotone(AccessibleTo(user), AccessibleTo(more), Registry);
  }

  /** A user without permissions has an empty menu and lands on `"/"`. */
  lemma NoPermissionsNoRoutes()
    ensures GetAccessibleRoutes([]) == []
    ensures GetFirstAccessibleRoute([]) == RootPath
  {
    var rs := GetAccessibleRoutes([]);
    assert forall r :: r !in rs;
    FirstIsHeadOfAccessible([]);
  }

  /** Nine routes, the home route first, every route guarded by one permission. */
  lemma RegistryShape()
    ensures |Registry| == 9
    ensures Registry[0] == MenuRoute("Dashboard", "/", ["Dashboard"])
    ensures forall i :: 0 <= i < |Registry| ==> |Registry[i].requiredPermissions| == 1
  {
  }

  /** The last route: the settings pages, guarded by "Settings". */
  lemma SettingsRoute()
    ensures Registry[8] == MenuRoute("Settings", "/settings", ["Settings"])
  {
  }

  /** The i-th route is guarded by the i-th catalog permission. */
  lemma RegistryFollowsCatalog()
    ensures forall i :: 0 <= i < |Registry| ==>
      Registry[i].requiredPermissions == [PermissionOf(AllModules[i])]
  {
  }

  /** Route paths are pairwise distinct. */
  lemma RegistryHrefsDistinct()
    ensures NoDup(Hrefs())
  {
    var hs := Hrefs();
    forall i, j | 0 <= i < j < |hs|
      ensures hs[i] != hs[j]
    {
      NotPrefix(i, j);
    }
  }

  /**
   * No path is a prefix of another path, apart from `"/"`, which is a prefix
   * of every path but matches by equality only.
   */
  lemma RegistryPrefixFree()
    ensures forall i, j :: 1 <= i < |Registry| && 0 <= j < |Registry| && i != j ==>
      !(Registry[i].href <= Registry[j].href)
  {
    forall i, j | 1 <= i < |Registry| && 0 <= j < |Registry| && i != j
      ensures !(Registry[i].href <= Registry[j].href)
    {
      NotPrefix(i, j);
    }
  }

  lemma NotPrefix(i: nat, j: nat)
    requires i < |Registry| && j < |Registry| && i != j && (i > 0 || j > 0)
    ensures i > 0 ==> !(Registry[i].href <= Registry[j].href)
    ensures Registry[i].href != Registry[j].href
  {
    var a, b := Registry[i].href, Registry[j].href;
    if j == 0 {
      assert |a| > |b|;
    } else if i == 0 {
      assert |a| < |b|;
    } else if {i, j} == {3, 8} {
      assert a[2] != b[2];
    } else {
      assert a[1] != b[1];
    }
  }
}

=== FILE: notifications.dfy ===
/**
 * The list logic of `features/notifications/notificatioms-content.tsx`: ten
 * rows per page, the row checkboxes and the header checkbox. Unlike the
 * roles table, "select all" decides by comparing lengths, and the page
 * count has no lower bound of one.
 */
module Notifications {
  import opened Seqs
  import opened Paging

  /** A notification as the list reads it (numeric ids). */
  datatype Notification = Notification(id: int, title: string)

  const ItemsPerPage: nat := 10

  /** The ids of `ns`, in list order. */
  function Ids(ns: seq<Notification>): (ids: seq<int>)
    ensures |ids| == |ns|
    ensures forall i :: 0 <= i < |ns| ==> ids[i] == ns[i].id
  {
    seq(|ns|, i requires 0 <= i < |ns| => ns[i].id)
  }

  /** `totalPages`: the fewest pages that hold `n` rows; zero for an empty list. */
  function TotalPages(n: nat): (t: nat)
    ensures t * ItemsPerPage >= n
    ensures t > 0 ==> (t - 1) * ItemsPerPage < n
    ensures t == 0 <==> n == 0
  {
    CeilDiv(n, ItemsPerPage)
  }

  /** The pagination bar is shown only with more than one page: never for ten rows or fewer. */
  lemma PagerHiddenForOnePage(n: nat)
    ensures TotalPages(n) > 1 <==> n > ItemsPerPage
  {
  }

  /** `currentNotifications`: the rows from `(currentPage - 1) * 10`, at most ten of them. */
  function CurrentNotifications(ns: seq<Notification>, currentPage: int): (r: seq<Notification>)
    ensures currentPage >= 1 ==> |r| <= ItemsPerPage
    ensures currentPage >= 1 && |r| > 0 ==>
      var start := (currentPage - 1) * ItemsPerPage;
      start + |r| <= |ns| && r == ns[start..start + |r|]
    ensures var start := (currentPage - 1) * ItemsPerPage;
      currentPage >= 1 && start <= |ns| ==> |r| == Min(ItemsPerPage, |ns| - start)
    ensures 1 <= currentPage <= TotalPages(|ns|) ==> |r| > 0
  {
    PageStartsAt(ns, ItemsPerPage, currentPage);
    ListedPageNonEmpty(ns, currentPage);
    Page(ns, ItemsPerPage, currentPage)
  }

  /** Each page with a button in the pager shows at least one row. */
  lemma ListedPageNonEmpty(ns: seq<Notification>, page: int)
    ensures 1 <= page <= TotalPages(|ns|) ==> |Page(ns, ItemsPerPage, page)| > 0
  {
    if 1 <= page <= TotalPages(|ns|) {
      PageNonEmpty(ns, ItemsPerPage, page, TotalPages(|ns|));
    }
  }

  /** The pages 1 to `totalPages` reassemble the list. */
  lemma PagesReassemble(ns: seq<Notification>)
    ensures ConcatPages(ns, ItemsPerPage, TotalPages(|ns|)) == ns
  {
    PagesCoverAll(ns, ItemsPerPage, TotalPages(|ns|));
  }

  /** `toggleSelectAll`: clear when the selection is as long as the list, else select every row. */
  function ToggleSelectAll(selected: seq<int>, ns: seq<Notification>): (r: seq<int>)
    ensures |selected| == |ns| ==> r == []
    ensures |selected| != |ns| ==> |r| == |ns| && forall i :: 0 <= i < |ns| ==> r[i] == ns[i].id
  {
    if |selected| == |ns| then [] else Ids(ns)
  }

  /** `toggleSelectRow(id)`: drop the id if selected, else append it. */
  function ToggleSelectRow(selected: seq<int>, id: int): (r: seq<int>)
    ensures id in r <==> id !in selected
    ensures forall x :: x != id ==> (x in r <==> x in selected)
    ensures id !in selected ==> |r| == |selected| + 1 && r[..|selected|] == selected
    ensures id in selected ==> IsSubseq(r, selected)
    ensures forall x :: x != id ==> Count(r, x) == Count(selected, x)
  {
    Toggle(selected, id)
  }

  /** Toggling an unselected row twice restores the selection. */
  lemma ToggleRowTwice(selected: seq<int>, id: int)
    requires id !in selected
    ensures ToggleSelectRow(ToggleSelectRow(selected, id), id) == selected
  {
    ToggleTwice(selected, id);
  }

  /** The header checkbox: the selection is as long as a non-empty list. */
  function HeaderChecked(selected: seq<int>, ns: seq<Notification>): (b: bool)
    ensures b ==> |ns| > 0
    ensures b <==> |selected| == |ns| && |selected| > 0
  {
    |selected| == |ns| && |ns| > 0
  }

  /**
   * What the selection always is when it is built only by the two toggles
   * from an empty start: duplicate-free ids of listed rows.
   */
  predicate ValidSelection(selected: seq<int>, ns: seq<Notification>) {
    NoDup(selected) && forall x :: x in selected ==> x in Ids(ns)
  }

  /** The two toggles keep the selection valid when the listed ids are distinct. */
  lemma TogglesKeepValid(selected: seq<int>, ns: seq<Notification>, id: int)
    requires NoDup(Ids(ns))
    requires ValidSelection(selected, ns)
    requires id in Ids(ns)
    ensures ValidSelection(ToggleSelectAll(selected, ns), ns)
    ensures ValidSelection(ToggleSelectRow(selected, id), ns)
  {
    assert ToggleSelectAll(selected, ns) == [] || ToggleSelectAll(selected, ns) == Ids(ns);
  }

  /** A set inside another with as many elements is the same set. */
  lemma SubsetSameSize<T>(a: set<T>, b: set<T>)
    requires a <= b && |a| == |b|
    ensures a == b
  {
    assert b == a + (b - a);
    assert b - a == {};
  }

  /**
   * On a valid selection the length test means what it is meant to: the
   * selection is as long as the list exactly when every row is selected.
   */
  lemma LengthMeansAllSelected(selected: seq<int>, ns: seq<Notification>)
    requires NoDup(Ids(ns))
    requires ValidSelection(selected, ns)
    ensures |selected| == |ns| <==> forall i :: 0 <= i < |ns| ==> ns[i].id in selected
  {
    var ids := Ids(ns);
    var a := set x | x in selected;
    var b := set x | x in ids;
    NoDupCard(selected);
    NoDupCard(ids);
    assert a <= b by {
      forall x | x in a
        ensures x in b
      {
        assert x in selected;
      }
    }
    if |selected| == |ns| {
      SubsetSameSize(a, b);
      forall i | 0 <= i < |ns|
        ensures ns[i].id in selected
      {
        assert ids[i] in b;
      }
    }
    if forall i :: 0 <= i < |ns| ==> ns[i].id in selected {
      forall x | x in b
        ensures x in a
      {
        var i :| 0 <= i < |ids| && ids[i] == x;
      }
      assert a == b;
    }
  }

  /** Without that invariant the length test misfires: a stale id makes "select all" clear. */
  lemma LengthTestMisfires()
    ensures var ns := [Notification(1, "a")];
      && ToggleSelectAll([2], ns) == []
      && HeaderChecked([2], ns)
      && 1 !in [2]
  {
  }

  /** Previous and Next keep the page within `[1, totalPages]`. */
  lemma PagerStaysInRange(page: int, n: nat)
    requires 1 <= page <= TotalPages(n)
    ensures 1 <= PrevPage(page) <= TotalPages(n)
    ensures 1 <= NextPage(page, TotalPages(n)) <= TotalPages(n)
  {
    PrevNextStayInRange(page, TotalPages(n));
  }
}

=== FILE: paging.dfy ===
/**
 * Client-side pagination shared by the roles table and the notifications
 * list: `Math.ceil(n / size)`, `Array.prototype.slice` with JavaScript's
 * index clamping, the page window of page `p`, and the Previous/Next buttons.
 */
module Paging {

  function Min(a: int, b: int): int { if a <= b then a else b }
  function Max(a: int, b: int): int { if a >= b then a else b }

  /** `Math.ceil(n / d)` for a non-negative `n`. */
  function CeilDiv(n: nat, d: nat): (q: nat)
    requires d > 0
    ensures q * d >= n
    ensures q > 0 ==> (q - 1) * d < n
    ensures q == 0 <==> n == 0
  {
    var q := (n + d - 1) / d;
    assert (n + d - 1) == q * d + (n + d - 1) % d;
    q
  }

  /** How `slice` reads an index: negative counts from the end, then clamp to `[0, len]`. */
  function SliceIndex(i: int, len: nat): (k: nat)
    ensures k <= len
    ensures 0 <= i <= len ==> k == i
    ensures i > len ==> k == len
  {
    if i < 0 then Max(len + i, 0) else Min(i, len)
  }

  /** `s.slice(start, end)`. */
  function JsSlice<T>(s: seq<T>, start: int, end: int): (r: seq<T>)
    ensures 0 <= start && 0 <= end ==> |r| <= Max(end - start, 0)
    ensures 0 <= start ==> forall k :: 0 <= k < |r| ==> start + k < |s| && r[k] == s[start + k]
    ensures 0 <= start <= end <= |s| ==> r == s[start..end]
    ensures 0 <= start <= |s| <= end ==> r == s[start..]
  {
    var a, b := SliceIndex(start, |s|), SliceIndex(end, |s|);
    if a <= b then
      assert 0 <= start ==> a == start || (a == |s| && b == |s|);
      s[a..b]
    else []
  }

  /** Where page `n + 1` starts: `n * size`, built up one page at a time. */
  function Offset(n: nat, size: nat): nat {
    if n == 0 then 0 else Offset(n - 1, size) + size
  }

  lemma {:induction false} OffsetIsProduct(n: nat, size: nat)
    ensures Offset(n, size) == n * size
  {
    if n > 0 {
      OffsetIsProduct(n - 1, size);
      assert (n - 1) * size + size == n * size;
    }
  }

  lemma {:induction false} OffsetMonotone(m: nat, n: nat, size: nat)
    requires m <= n
    ensures Offset(m, size) <= Offset(n, size)
    decreases n
  {
    if m < n {
      OffsetMonotone(m, n - 1, size);
    }
  }

  /**
   * The window shown on page `page` (counted from 1) with `size` rows per
   * page: `s.slice((page - 1) * size, page * size)`.
   */
  function Page<T>(s: seq<T>, size: nat, page: int): (r: seq<T>)
    requires size > 0
    ensures page >= 1 ==> |r| <= size
    ensures page >= 1 ==>
      r == s[Min(Offset(page - 1, size), |s|)..Min(Offset(page - 1, size) + size, |s|)]
  {
    if page >= 1 then
      var start := Offset(page - 1, size);
      JsSlice(s, start, start + size)
    else
      JsSlice(s, (page - 1) * size, page * size)
  }

  /**
   * A non-empty page `page` is the run of the list that starts at
   * `(page - 1) * size`; a page starting inside the list holds `size` rows,
   * or what is left of the list.
   */
  lemma PageStartsAt<T>(s: seq<T>, size: nat, page: int)
    requires size > 0
    ensures var r := Page(s, size, page);
      page >= 1 && |r| > 0 ==>
        (page - 1) * size + |r| <= |s| && r == s[(page - 1) * size..(page - 1) * size + |r|]
    ensures var r := Page(s, size, page);
      page >= 1 && (page - 1) * size <= |s| ==> |r| == Min(size, |s| - (page - 1) * size)
  {
    if page >= 1 {
      OffsetIsProduct(page - 1, size);
    }
  }

  /**
   * With `count` pages, none of them superfluous, every page from 1 to
   * `count` of a non-empty list shows at least one row.
   */
  lemma PageNonEmpty<T>(s: seq<T>, size: nat, page: int, count: nat)
    requires size > 0 && |s| > 0
    requires 1 <= page <= count
    requires count > 1 ==> (count - 1) * size < |s|
    ensures |Page(s, size, page)| > 0
  {
    if count > 1 {
      OffsetMonotone(page - 1, count - 1, size);
      OffsetIsProduct(count - 1, size);
    }
  }

  /** Pages 1 to `count` laid end to end. */
  function ConcatPages<T>(s: seq<T>, size: nat, count: nat): seq<T>
    requires size > 0
  {
    if count == 0 then [] else ConcatPages(s, size, count - 1) + Page(s, size, count)
  }

  /** Two adjacent slices from the front make one. */
  lemma SliceJoin<T>(s: seq<T>, a: nat, b: nat)
    requires a <= b <= |s|
    ensures s[..a] + s[a..b] == s[..b]
  {
  }

  /** The first `count` pages are exactly the first `count * size` elements. */
  lemma {:induction false} ConcatPagesIsPrefix<T>(s: seq<T>, size: nat, count: nat)
    requires size > 0
    ensures ConcatPages(s, size, count) == s[..Min(Offset(count, size), |s|)]
  {
    if count > 0 {
      ConcatPagesIsPrefix(s, size, count - 1);
      var a, b := Min(Offset(count - 1, size), |s|), Min(Offset(count, size), |s|);
      assert Offset(count, size) == Offset(count - 1, size) + size;
      assert a <= b;
      assert Page(s, size, count) == s[a..b];
      SliceJoin(s, a, b);
    }
  }

  /** Enough pages to hold every element reassemble the whole list. */
  lemma PagesCoverAll<T>(s: seq<T>, size: nat, count: nat)
    requires size > 0
    requires count * size >= |s|
    ensures ConcatPages(s, size, count) == s
  {
    ConcatPagesIsPrefix(s, size, count);
    OffsetIsProduct(count, size);
  }

  /** The Previous button: `p => Math.max(1, p - 1)`. */
  function PrevPage(page: int): (r: int)
    ensures r >= 1
    ensures page >= 1 ==> r <= page
    ensures page > 1 ==> r == page - 1
    ensures page <= 1 ==> r == 1
  {
    Max(1, page - 1)
  }

  /** The Next button: `p => Math.min(total, p + 1)`. */
  function NextPage(page: int, total: nat): (r: int)
    ensures r <= total
    ensures page < total ==> r == page + 1
    ensures page >= 1 && total >= 1 ==> r >= 1
    ensures page >= total ==> r == total
  {
    Min(total, page + 1)
  }

  /** Previous and Next keep a page within `[1, total]`. */
  lemma PrevNextStayInRange(page: int, total: nat)
    requires 1 <= page <= total
    ensures 1 <= PrevPage(page) <= total
    ensures 1 <= NextPage(page, total) <= total
  {
  }
}

=== FILE: permissions.dfy ===
/**
 * The permission catalog and the permission algebra of `lib/permissions.ts`.
 *
 * A permission is an opaque name compared by exact string equality. A
 * user's permissions are the list the identity service reported (kept as a
 * list because callers test its length).
 */
module Permissions {
  import opened Wrappers
  import opened Seqs
  import opened Text

  type Permission = string

  /** The keys of `PERMISSIONS` and `PERMISSION_GROUPS`. */
  datatype Module =
    | Dashboard | Revenue | Analysis | Subscription | Payment
    | Users | Notification | Feedback | Settings

  /** `PERMISSIONS[m]`: the permission name stored in the database for module `m`. */
  function PermissionOf(m: Module): Permission {
    match m
    case Dashboard => "Dashboard"
    case Revenue => "Revenue"
    case Analysis => "Analysis"
    case Subscription => "Subscription"
    case Payment => "Payment"
    case Users => "Users"
    case Notification => "Notification"
    case Feedback => "Feedback"
    case Settings => "Settings"
  }

  /** The catalog's modules in declaration order. */
  const AllModules: seq<Module> :=
    [Dashboard, Revenue, Analysis, Subscription, Payment, Users, Notification, Feedback, Settings]

  /** The nine permission values in declaration order. */
  function AllPermissions(): (ps: seq<Permission>)
    ensures |ps| == 9
    ensures NoDup(ps)
    ensures forall m :: PermissionOf(m) in ps
  {
    var ps := seq(|AllModules|, i requires 0 <= i < |AllModules| => PermissionOf(AllModules[i]));
    forall i, j | 0 <= i < j < |ps|
      ensures ps[i] != ps[j]
    {
      PermissionOfInjective(AllModules[i], AllModules[j]);
    }
    forall m | true
      ensures PermissionOf(m) in ps
    {
      var i := match m
        case Dashboard => 0 case Revenue => 1 case Analysis => 2
        case Subscription => 3 case Payment => 4 case Users => 5
        case Notification => 6 case Feedback => 7 case Settings => 8;
      assert ps[i] == PermissionOf(m);
    }
    ps
  }

  /** `getModulePermissions(m)`, i.e. `PERMISSION_GROUPS[m]`: one permission per module. */
  function GetModulePermissions(m: Module): (g: seq<Permission>)
    ensures |g| == 1
    ensures forall p :: p in g <==> p == PermissionOf(m)
  {
    [PermissionOf(m)]
  }

  /** Distinct modules carry distinct permission names. */
  lemma PermissionOfInjective(a: Module, b: Module)
    ensures PermissionOf(a) == PermissionOf(b) ==> a == b
  {
  }

  /** `hasAnyPermission(user, required)`: OR semantics, false on an empty requirement. */
  function HasAnyPermission(user: seq<Permission>, required: seq<Permission>): (b: bool)
    ensures b <==> exists p :: p in required && p in user
    ensures |required| == 0 ==> !b
  {
    if |required| == 0 then false
    else required[0] in user || HasAnyPermission(user, required[1..])
  }

  /** `hasAllPermissions(user, required)`: AND semantics, true on an empty requirement. */
  function HasAllPermissions(user: seq<Permission>, required: seq<Permission>): (b: bool)
    ensures b <==> forall p :: p in required ==> p in user
    ensures |required| == 0 ==> b
  {
    if |required| == 0 then true
    else required[0] in user && HasAllPermissions(user, required[1..])
  }

  /** Holding all of a non-empty requirement implies holding one of it. */
  lemma AllImpliesAny(user: seq<Permission>, required: seq<Permission>)
    requires |required| > 0
    requires HasAllPermissions(user, required)
    ensures HasAnyPermission(user, required)
  {
    assert required[0] in required;
  }

  /** Granting more permissions never revokes an any-of check. */
  lemma HasAnyMonotone(user: seq<Permission>, more: seq<Permission>, required: seq<Permission>)
    requires forall p :: p in user ==> p in more
    requires HasAnyPermission(user, required)
    ensures HasAnyPermission(more, required)
  {
  }

  /** `canViewModule(user, m)`: the module's single permission is held. */
  function CanViewModule(user: seq<Permission>, m: Module): (b: bool)
    ensures b <==> PermissionOf(m) in user
  {
    HasAnyPermission(user, GetModulePermissions(m))
  }

  /** The group's first permission named `manage_…`, if any (`find` + `startsWith`). */
  function ManagePermission(group: seq<Permission>): (r: Option<Permission>)
    ensures r.Some? ==> r.value in group && StartsWith(r.value, "manage_")
    ensures r.None? <==> forall p :: p in group ==> !StartsWith(p, "manage_")
    ensures r.Some? ==>
      exists i :: 0 <= i < |group| && group[i] == r.value &&
        forall j :: 0 <= j < i ==> !StartsWith(group[j], "manage_")
  {
    match FindFirst((p: Permission) => StartsWith(p, "manage_"), group)
    case None => None
    case Some(i) =>
      assert forall j :: 0 <= j < i ==> !StartsWith(group[j], "manage_");
      Some(group[i])
  }

  /** `canManageModule(user, m)`: the module's `manage_` permission exists and is held. */
  function CanManageModule(user: seq<Permission>, m: Module): (b: bool)
    ensures b <==> exists p :: p in GetModulePermissions(m) && StartsWith(p, "manage_") && p in user
  {
    match ManagePermission(GetModulePermissions(m))
    case None => false
    case Some(p) => p in user
  }

  /** No catalog permission is a `manage_` permission, so nobody can manage any module. */
  lemma CanManageModuleNever(user: seq<Permission>, m: Module)
    ensures !CanManageModule(user, m)
  {
    var p := PermissionOf(m);
    assert p[0] != 'm';
    assert !StartsWith(p, "manage_");
  }

  /** `getMissingPermissions(user, required)`: the required permissions not held, in order. */
  function GetMissingPermissions(user: seq<Permission>, required: seq<Permission>): (r: seq<Permission>)
    ensures IsSubseq(r, required)
    ensures forall p :: p in r <==> p in required && p !in user
    ensures |r| == 0 <==> HasAllPermissions(user, required)
    ensures forall p :: Count(r, p) == if p in user then 0 else Count(required, p)
  {
    var missing := (p: Permission) => p !in user;
    var r := Filter(missing, required);
    assert |r| > 0 ==> r[0] in r;
    forall p ensures Count(r, p) == if p in user then 0 else Count(required, p) {
      FilterCount(missing, required, p);
    }
    r
  }

  /** An item gated by optional required permissions (`{ requiredPermissions?: string[] }`). */
  datatype Gated<T> = Gated(item: T, requiredPermissions: Option<seq<Permission>>)

  /**
   * `filterByPermissions(items, user)`: keeps, in order, the items with no or
   * an empty requirement and the items for which `hasAnyPermission` holds.
   */
  function FilterByPermissions<T(==,!new)>(items: seq<Gated<T>>, user: seq<Permission>): (r: seq<Gated<T>>)
    ensures IsSubseq(r, items)
    ensures forall it :: it in r <==>
      (it in items &&
       (it.requiredPermissions.None? || |it.requiredPermissions.value| == 0 ||
        exists p :: p in it.requiredPermissions.value && p in user))
    ensures forall it :: Count(r, it) == if Admits(user, it) then Count(items, it) else 0
  {
    var admitted := (it: Gated<T>) => Admits(user, it);
    forall it ensures Count(Filter(admitted, items), it) == if Admits(user, it) then Count(items, it) else 0 {
      FilterCount(admitted, items, it);
    }
    Filter(admitted, items)
  }

  /** Whether `filterByPermissions` keeps the item for this user. */
  predicate Admits<T>(user: seq<Permission>, it: Gated<T>) {
    it.requiredPermissions.None? || |it.requiredPermissions.value| == 0 ||
    HasAnyPermission(user, it.requiredPermissions.value)
  }

  /** Items without requirements survive any filtering, even by a user with no permissions. */
  lemma UngatedAlwaysKept<T(!new)>(items: seq<Gated<T>>, user: seq<Permission>, it: Gated<T>)
    requires it in items
    requires it.requiredPermissions == None || it.requiredPermissions == Some([])
    ensures it in FilterByPermissions(items, user)
  {
  }
}

=== FILE: protected_component.dfy ===
/**
 * The wrappers of `components/root/protected-component.tsx`: a component
 * gate that renders its children or a fallback, and a page gate that
 * renders its children or pushes a redirect. Both use the OR rule of the
 * permission algebra, except that an empty requirement grants access.
 */
module ProtectedComponent {
  import opened Wrappers
  import opened Permissions
  import MenuRoutes
  import RouteGuard

  /** `permission ? [permission] : permissions || []`; the empty string is falsy. */
  function RequiredPerms(permission: Option<string>, permissions: Option<seq<Permission>>): (r: seq<Permission>)
    ensures permission.Some? && permission.value != "" ==> r == [permission.value]
    ensures permission.None? || permission.value == "" ==> r == permissions.GetOr([])
    ensures forall p :: p in r ==>
      (permission.Some? && p == permission.value) || (permissions.Some? && p in permissions.value)
  {
    if permission.Some? && permission.value != "" then [permission.value]
    else if permissions.Some? then permissions.value
    else []
  }

  /** `hasAccess`: no requirement, or one of the requirements is held. */
  function HasAccess(required: seq<Permission>, user: seq<Permission>): (b: bool)
    ensures b <==> |required| == 0 || exists p :: p in required && p in user
    ensures |required| > 0 ==> (b <==> HasAnyPermission(user, required))
  {
    |required| == 0 || HasAnyPermission(user, required)
  }

  /** What `ProtectedComponent` renders. */
  datatype ComponentView<N> = ShowChildren | ShowFallback(node: N) | ShowNothing

  /** `ProtectedComponent`: the children when access is granted, else the fallback (default `null`). */
  function ComponentRender<N>(permission: Option<string>, permissions: Option<seq<Permission>>,
                              fallback: Option<N>, user: seq<Permission>): (v: ComponentView<N>)
    ensures v.ShowChildren? <==> HasAccess(RequiredPerms(permission, permissions), user)
    ensures !v.ShowChildren? && fallback.Some? ==> v == ShowFallback(fallback.value)
    ensures v == ShowNothing <==> !HasAccess(RequiredPerms(permission, permissions), user) && fallback.None?
  {
    if HasAccess(RequiredPerms(permission, permissions), user) then ShowChildren
    else match fallback
      case Some(f) => ShowFallback(f)
      case None => ShowNothing
  }

  /** A component with no requirement is shown even to a user with no permissions. */
  lemma UnrestrictedComponentShown<N>(fallback: Option<N>, user: seq<Permission>)
    ensures ComponentRender(None, None, fallback, user) == ShowChildren
    ensures ComponentRender(Some(""), Some([]), fallback, user) == ShowChildren
  {
  }

  /**
   * The same empty requirement is read in opposite ways: the component gate
   * shows its children, while the page guard turns a matched route with no
   * permissions into a redirect to the not-found page.
   */
  lemma EmptyRequirementAsymmetry(routes: seq<MenuRoutes.MenuRoute>, input: RouteGuard.GuardInput, i: nat)
    requires RouteGuard.FirstMatchAt(routes, input.pathname, i)
    requires routes[i].requiredPermissions == []
    requires !input.isLoading && input.isAuthenticated
    requires input.pathname != RouteGuard.SignInPath && !(RouteGuard.PublicRoutes[0] <= input.pathname)
    ensures ComponentRender<()>(None, Some(routes[i].requiredPermissions), None, input.permissions) == ShowChildren
    ensures RouteGuard.DecideIn(routes, input) == RouteGuard.Replace(RouteGuard.NotFoundPath)
  {
    RouteGuard.EmptyRequirementDenied(routes, input, i);
  }

  const DefaultRedirect: string := "/"

  /** The page gate's effect (`router.push`) and whether it renders its children. */
  datatype PageDecision = PageDecision(push: Option<string>, rendersChildren: bool)

  /**
   * The page-level `ProtectedRoute`: an unauthenticated user is pushed to the
   * sign-in page before any permission test; an authenticated user without
   * access is pushed to `redirectTo` (default `"/"`).
   */
  function PageRender(permission: Option<string>, permissions: Option<seq<Permission>>,
                      redirectTo: Option<string>, isAuthenticated: bool,
                      user: seq<Permission>): (d: PageDecision)
    ensures !isAuthenticated ==> d.push == Some(RouteGuard.SignInPath)
    ensures isAuthenticated && !HasAccess(RequiredPerms(permission, permissions), user) ==>
      d.push == Some(redirectTo.GetOr(DefaultRedirect))
    ensures d.rendersChildren <==> isAuthenticated && HasAccess(RequiredPerms(permission, permissions), user)
    ensures d.push.None? <==> d.rendersChildren
  {
    var access := HasAccess(RequiredPerms(permission, permissions), user);
    var push :=
      if !isAuthenticated then Some(RouteGuard.SignInPath)
      else if !access then Some(redirectTo.GetOr(DefaultRedirect))
      else None;
    PageDecision(push, isAuthenticated && access)
  }
}

=== FILE: roles_table.dfy ===
/**
 * The state logic of the roles table in
 * `features/settings/components/roles-table.tsx`: the name search, five
 * rows per page, the row and header checkboxes, and the bulk-delete
 * dialog's guard, title and description. The role list itself comes from
 * the roles service and is an input here.
 */
module RolesTable {
  import opened Wrappers
  import opened Seqs
  import opened Text
  import opened Paging

  /** A role as the table reads it: its id and its possibly missing name. */
  datatype Role = Role(id: string, name: Option<string>)

  const PageSize: nat := 5

  /** The search test: the role has a name and its lower-cased name contains the lower-cased search. */
  function NameMatches(search: string): Role -> bool {
    (r: Role) => r.name.Some? && Includes(Lower(r.name.value), Lower(search))
  }

  /** `filteredRoles`: the roles whose name contains the search, ignoring case, in list order. */
  function FilteredRoles(roles: seq<Role>, search: string): (r: seq<Role>)
    ensures IsSubseq(r, roles)
    ensures forall x :: x in r <==>
      x in roles && x.name.Some? && exists i :: OccursAt(Lower(x.name.value), Lower(search), i)
  {
    Filter(NameMatches(search), roles)
  }

  /** An empty search keeps every role that has a name and drops the unnamed ones. */
  lemma EmptySearchKeepsNamed(roles: seq<Role>)
    ensures forall x :: x in FilteredRoles(roles, "") <==> x in roles && x.name.Some?
    ensures (forall i :: 0 <= i < |roles| ==> roles[i].name.Some?) ==> FilteredRoles(roles, "") == roles
  {
    forall x: Role | x.name.Some?
      ensures NameMatches("")(x)
    {
      IncludesEmpty(Lower(x.name.value));
    }
  }

  /** `pageCount`: the fewest pages, at least one, that hold `n` rows. */
  function PageCount(n: nat): (c: nat)
    ensures c >= 1
    ensures c * PageSize >= n
    ensures c > 1 ==> (c - 1) * PageSize < n
  {
    Max(1, CeilDiv(n, PageSize))
  }

  /** `currentPage`: the requested page, clamped to the last page. */
  function CurrentPage(page: int, n: nat): (p: int)
    ensures p <= PageCount(n)
    ensures page >= 1 ==> p >= 1
    ensures page <= PageCount(n) ==> p == page
    ensures page > PageCount(n) ==> p == PageCount(n)
  {
    Min(page, PageCount(n))
  }

  /** `paginatedRoles`: the rows of the current page. */
  function PaginatedRoles(filtered: seq<Role>, page: int): (r: seq<Role>)
    requires page >= 1
    ensures |r| <= PageSize
    ensures |r| > 0 ==>
      var start := (CurrentPage(page, |filtered|) - 1) * PageSize;
      start + |r| <= |filtered| && r == filtered[start..start + |r|]
    ensures var start := (CurrentPage(page, |filtered|) - 1) * PageSize;
      start <= |filtered| ==> |r| == Min(PageSize, |filtered| - start)
    ensures |filtered| > 0 ==> |r| > 0
  {
    var p := CurrentPage(page, |filtered|);
    PageStartsAt(filtered, PageSize, p);
    CurrentPageNonEmpty(filtered, page);
    Page(filtered, PageSize, p)
  }

  /** The clamped current page of a non-empty list always shows a row. */
  lemma CurrentPageNonEmpty(filtered: seq<Role>, page: int)
    requires page >= 1
    ensures |filtered| > 0 ==> |Page(filtered, PageSize, CurrentPage(page, |filtered|))| > 0
  {
    if |filtered| > 0 {
      PageNonEmpty(filtered, PageSize, CurrentPage(page, |filtered|), PageCount(|filtered|));
    }
  }

  /** The pages 1 to `pageCount`, laid end to end, give back the filtered list. */
  lemma PagesReassemble(filtered: seq<Role>)
    ensures ConcatPages(filtered, PageSize, PageCount(|filtered|)) == filtered
  {
    PagesCoverAll(filtered, PageSize, PageCount(|filtered|));
  }

  /** After the search changes the page is reset to 1, which shows the first rows of the filtered list. */
  lemma ResetPageShowsFirstRows(filtered: seq<Role>)
    ensures PaginatedRoles(filtered, 1) == filtered[..Min(PageSize, |filtered|)]
  {
  }

  /** `toggleSelect(id, checked)`: append an absent id, or drop it. */
  function ToggleSelect(prev: seq<string>, id: string, checked: bool): (r: seq<string>)
    ensures checked ==> id in r && prev <= r && |r| <= |prev| + 1
    ensures !checked ==> id !in r && IsSubseq(r, prev)
    ensures forall x :: x != id ==> (x in r <==> x in prev)
    ensures NoDup(prev) ==> NoDup(r)
    ensures checked && id in prev ==> r == prev
    ensures !checked ==> forall x :: x != id ==> Count(r, x) == Count(prev, x)
  {
    if checked then
      if id in prev then prev
      else
        assert NoDup(prev) ==> NoDup(prev + [id]);
        prev + [id]
    else Remove(prev, id)
  }

  /** Checking a row twice is checking it once; checking then unchecking a fresh id undoes it. */
  lemma ToggleSelectSettles(prev: seq<string>, id: string, checked: bool)
    ensures ToggleSelect(ToggleSelect(prev, id, checked), id, checked) == ToggleSelect(prev, id, checked)
    ensures id !in prev ==> ToggleSelect(ToggleSelect(prev, id, true), id, false) == prev
  {
    if id !in prev {
      RemoveAppended(prev, id);
    }
  }

  /** The ids of `roles`, in order. */
  function Ids(roles: seq<Role>): (ids: seq<string>)
    ensures |ids| == |roles|
    ensures forall i :: 0 <= i < |roles| ==> ids[i] == roles[i].id
    ensures forall x :: x in ids <==> exists i :: 0 <= i < |roles| && roles[i].id == x
  {
    seq(|roles|, i requires 0 <= i < |roles| => roles[i].id)
  }

  /** `toggleSelectAll(checked)` over the filtered rows. */
  function ToggleSelectAll(prev: seq<string>, filtered: seq<Role>, checked: bool): (r: seq<string>)
    ensures checked ==> NoDup(r) && forall x :: x in r <==> x in prev || x in Ids(filtered)
    ensures checked && NoDup(prev) ==> prev <= r
    ensures !checked ==> IsSubseq(r, prev) && forall x :: x in r <==> x in prev && x !in Ids(filtered)
    ensures NoDup(prev) ==> NoDup(r)
    ensures checked ==> forall i, j :: 0 <= i < j < |r| ==>
      r[i] in prev + Ids(filtered) && r[j] in prev + Ids(filtered) &&
      FirstIndex(prev + Ids(filtered), r[i]) < FirstIndex(prev + Ids(filtered), r[j])
    ensures !checked ==> forall x :: Count(r, x) == if x in Ids(filtered) then 0 else Count(prev, x)
  {
    var ids := Ids(filtered);
    if checked then
      if NoDup(prev) then
        DedupExtends(prev, ids);
        Dedup(prev + ids)
      else Dedup(prev + ids)
    else
      var keep := (x: string) => x !in ids;
      FilterNoDup(keep, prev);
      forall x ensures Count(Filter(keep, prev), x) == if x in ids then 0 else Count(prev, x) {
        FilterCount(keep, prev, x);
      }
      Filter(keep, prev)
  }

  /** `selectedInView`: the filtered rows whose id is selected. */
  function SelectedInView(filtered: seq<Role>, selected: seq<string>): (r: seq<Role>)
    ensures IsSubseq(r, filtered)
    ensures forall x :: x in r <==> x in filtered && x.id in selected
    ensures |r| == |filtered| <==> forall i :: 0 <= i < |filtered| ==> filtered[i].id in selected
  {
    Filter((x: Role) => x.id in selected, filtered)
  }

  /** `allSelected`: the filtered list is non-empty and every row in it is selected. */
  function AllSelected(filtered: seq<Role>, selected: seq<string>): (b: bool)
    ensures b <==> |filtered| > 0 && forall i :: 0 <= i < |filtered| ==> filtered[i].id in selected
  {
    |filtered| > 0 && |SelectedInView(filtered, selected)| == |filtered|
  }

  /** `someSelected`: some filtered row is selected but not all of them. */
  function SomeSelected(filtered: seq<Role>, selected: seq<string>): (b: bool)
    ensures b ==> !AllSelected(filtered, selected)
    ensures b <==> ((exists i :: 0 <= i < |filtered| && filtered[i].id in selected) &&
                    (exists i :: 0 <= i < |filtered| && filtered[i].id !in selected))
  {
    var v := SelectedInView(filtered, selected);
    assert |v| > 0 ==> v[0] in v;
    assert forall i :: 0 <= i < |filtered| && filtered[i].id in selected ==> filtered[i] in v;
    |v| > 0 && !AllSelected(filtered, selected)
  }

  /** The header checkbox's three states. */
  datatype HeaderCheckbox = Checked | Indeterminate | Unchecked

  /** `allSelected ? true : someSelected ? "indeterminate" : false`. */
  function Header(filtered: seq<Role>, selected: seq<string>): (h: HeaderCheckbox)
    ensures h == Checked <==> AllSelected(filtered, selected)
    ensures h == Indeterminate <==> SomeSelected(filtered, selected)
    ensures h == Unchecked <==> forall i :: 0 <= i < |filtered| ==> filtered[i].id !in selected
  {
    if AllSelected(filtered, selected) then Checked
    else if SomeSelected(filtered, selected) then Indeterminate
    else Unchecked
  }

  /** Clicking the header to checked selects every filtered row; to unchecked clears them all. */
  lemma HeaderAfterSelectAll(prev: seq<string>, filtered: seq<Role>)
    ensures |filtered| > 0 ==> Header(filtered, ToggleSelectAll(prev, filtered, true)) == Checked
    ensures Header(filtered, ToggleSelectAll(prev, filtered, false)) == Unchecked
  {
    var ids := Ids(filtered);
    assert forall i :: 0 <= i < |filtered| ==> filtered[i].id in ids by {
      forall i | 0 <= i < |filtered|
        ensures filtered[i].id in ids
      {
        assert ids[i] == filtered[i].id;
      }
    }
  }

  /** Unchecking the header leaves selections made under another search alone. */
  lemma UncheckKeepsHidden(prev: seq<string>, filtered: seq<Role>, x: string)
    requires x in prev
    requires forall i :: 0 <= i < |filtered| ==> filtered[i].id != x
    ensures x in ToggleSelectAll(prev, filtered, false)
  {
  }

  /** "Delete Selected" is offered only with more than one selected row. */
  function DeleteSelectedShown(selected: seq<string>): (b: bool)
    ensures b ==> |selected| >= 2
    ensures |selected| >= 2 ==> b
  {
    |selected| > 1
  }

  /** `handleBulkDeleteOpen`: the new dialog state; a no-op on an empty selection. */
  function BulkDeleteOpen(selected: seq<string>, isOpen: bool): (o: bool)
    ensures |selected| == 0 ==> o == isOpen
    ensures |selected| > 0 ==> o
  {
    if |selected| == 0 then isOpen else true
  }

  /** The button that shows the dialog always opens it. */
  lemma ShownButtonOpens(selected: seq<string>, isOpen: bool)
    requires DeleteSelectedShown(selected)
    ensures BulkDeleteOpen(selected, isOpen)
  {
  }

  /** How the delete request ended: `success: true`, `success: false`, or a thrown error. */
  datatype DeleteOutcome = Deleted | NotDeleted | Threw

  /** What `handleBulkDeleteConfirm` does: the ids sent, the new selection, the new dialog state. */
  datatype BulkDeleteStep = BulkDeleteStep(request: Option<seq<string>>, selected: seq<string>, dialogOpen: bool)

  /** `handleBulkDeleteConfirm`, given how the request ends. */
  function BulkDeleteConfirm(selected: seq<string>, isOpen: bool, outcome: DeleteOutcome): (s: BulkDeleteStep)
    ensures s.request.None? <==> |selected| == 0
    ensures s.request.Some? ==> s.request.value == selected
    ensures |selected| == 0 ==> s.selected == selected && s.dialogOpen == isOpen
    ensures |selected| > 0 ==> !s.dialogOpen
    ensures s.selected == [] <==> |selected| == 0 || outcome == Deleted
    ensures s.selected != [] ==> s.selected == selected
  {
    if |selected| == 0 then BulkDeleteStep(None, selected, isOpen)
    else if outcome == Deleted then BulkDeleteStep(Some(selected), [], false)
    else BulkDeleteStep(Some(selected), selected, false)
  }

  /** `roleToDelete`: the first role whose id is the one picked for deletion. */
  function RoleToDelete(roles: seq<Role>, deleteRoleId: Option<string>): (r: Option<Role>)
    ensures r.Some? ==> r.value in roles && deleteRoleId == Some(r.value.id)
    ensures r.None? <==> deleteRoleId.None? || forall i :: 0 <= i < |roles| ==> roles[i].id != deleteRoleId.value
    ensures r.Some? ==>
      exists i :: 0 <= i < |roles| && roles[i] == r.value &&
        forall j :: 0 <= j < i ==> roles[j].id != r.value.id
  {
    match deleteRoleId
    case None => None
    case Some(id) =>
      match FindFirst((x: Role) => x.id == id, roles)
      case None => None
      case Some(i) =>
        assert forall j :: 0 <= j < i ==> roles[j].id != id;
        Some(roles[i])
  }

  /** The single-delete dialog's title: `Delete ${roleToDelete?.name ?? "role"}`. */
  function DeleteTitle(roles: seq<Role>, deleteRoleId: Option<string>): (t: string)
    ensures StartsWith(t, "Delete ")
    ensures var r := RoleToDelete(roles, deleteRoleId);
      r.Some? && r.value.name.Some? ==> EndsWith(t, r.value.name.value) && |t| == 7 + |r.value.name.value|
    ensures var r := RoleToDelete(roles, deleteRoleId);
      r.None? || r.value.name.None? ==> t == "Delete role"
  {
    var r := RoleToDelete(roles, deleteRoleId);
    var shown := if r.Some? && r.value.name.Some? then r.value.name.value else "role";
    Framed("Delete ", shown, "");
    assert "Delete " + shown + "" == "Delete " + shown;
    "Delete " + shown
  }

  /** What `handleDeleteConfirm` does: the ids sent and the id left pending. */
  datatype SingleDeleteStep = SingleDeleteStep(request: Option<seq<string>>, deleteRoleId: Option<string>)

  /**
   * `handleDeleteConfirm`, given how the request ends: nothing is sent for a
   * missing or empty id (both falsy) and the state is left as it was;
   * otherwise the one id is sent and the pending id is cleared whatever the
   * outcome.
   */
  function DeleteConfirm(deleteRoleId: Option<string>, outcome: DeleteOutcome): (s: SingleDeleteStep)
    ensures s.request.Some? <==> deleteRoleId.Some? && deleteRoleId.value != ""
    ensures s.request.Some? ==> s.request.value == [deleteRoleId.value] && s.deleteRoleId.None?
    ensures s.request.None? ==> s.deleteRoleId == deleteRoleId
  {
    match deleteRoleId
    case Some(id) =>
      if id == "" then SingleDeleteStep(None, deleteRoleId)
      else SingleDeleteStep(Some([id]), None)
    case None => SingleDeleteStep(None, None)
  }

  /** The single-delete dialog is open exactly while an id is pending (`deleteRoleId !== null`). */
  function DeleteDialogOpen(deleteRoleId: Option<string>): (b: bool)
    ensures b <==> deleteRoleId.Some?
  {
    deleteRoleId.Some?
  }

  /** Confirming a picked role always closes the dialog, whether the request succeeds, fails or throws. */
  lemma DeleteConfirmCloses(id: string, outcome: DeleteOutcome)
    requires id != ""
    ensures !DeleteDialogOpen(DeleteConfirm(Some(id), outcome).deleteRoleId)
    ensures DeleteConfirm(Some(id), outcome).request == Some([id])
  {
  }

  /** `${n}` followed by "role" or "roles". */
  function BulkDeleteTitle(n: nat): (t: string)
    ensures StartsWith(t, "Delete ")
    ensures OccursAt(t, NatToString(n), 7)
    ensures EndsWith(t, " selected role") || EndsWith(t, " selected roles")
    ensures t[|t| - 1] == 's' <==> n != 1
    ensures EndsWith(t, if n == 1 then " selected role" else " selected roles")
    ensures |t| == 7 + |NatToString(n)| + (if n == 1 then 14 else 15)
  {
    var suffix := if n == 1 then " selected role" else " selected roles";
    Framed("Delete ", NatToString(n), suffix);
    "Delete " + NatToString(n) + suffix
  }

  /** The name a role contributes to the bulk-delete description: its name when selected and non-empty. */
  function NameIfSelected(r: Role, selected: seq<string>): seq<string> {
    if r.id in selected && r.name.Some? && r.name.value != "" then [r.name.value] else []
  }

  /** The selected roles' names, role by role. */
  function NamesOf(roles: seq<Role>, selected: seq<string>): seq<string>
    decreases |roles|
  {
    if |roles| == 0 then [] else NameIfSelected(roles[0], selected) + NamesOf(roles[1..], selected)
  }

  /** A role's name is listed exactly when the role is selected and its name is non-empty. */
  predicate NameListed(roles: seq<Role>, selected: seq<string>, n: string) {
    exists i :: 0 <= i < |roles| && roles[i].id in selected && roles[i].name == Some(n) && n != ""
  }

  lemma {:induction false} NamesOfMembers(roles: seq<Role>, selected: seq<string>)
    ensures |NamesOf(roles, selected)| <= |roles|
    ensures forall k :: 0 <= k < |NamesOf(roles, selected)| ==> NamesOf(roles, selected)[k] != ""
    ensures forall n :: n in NamesOf(roles, selected) <==> NameListed(roles, selected, n)
    decreases |roles|
  {
    if |roles| > 0 {
      NamesOfMembers(roles[1..], selected);
      forall n
        ensures NameListed(roles[1..], selected, n) <==>
          exists i :: 1 <= i < |roles| && roles[i].id in selected && roles[i].name == Some(n) && n != ""
      {
        if exists i :: 1 <= i < |roles| && roles[i].id in selected && roles[i].name == Some(n) && n != "" {
          var i :| 1 <= i < |roles| && roles[i].id in selected && roles[i].name == Some(n) && n != "";
          assert roles[1..][i - 1] == roles[i];
        }
      }
    }
  }

  /**
   * The names shown for the selected roles: the roles filtered by selection,
   * mapped to their names, with missing and empty names dropped.
   */
  function SelectedNames(roles: seq<Role>, selected: seq<string>): (names: seq<string>)
    ensures |names| <= |roles|
    ensures forall k :: 0 <= k < |names| ==> names[k] != ""
    ensures forall n :: n in names <==> NameListed(roles, selected, n)
  {
    NamesOfMembers(roles, selected);
    NamesOf(roles, selected)
  }

  lemma {:induction false} NamesOfAppend(a: seq<Role>, b: seq<Role>, selected: seq<string>)
    ensures NamesOf(a + b, selected) == NamesOf(a, selected) + NamesOf(b, selected)
    decreases |a|
  {
    if |a| == 0 {
      assert a + b == b;
    } else {
      NamesOfAppend(a[1..], b, selected);
      var h := NameIfSelected(a[0], selected);
      var ta, tb := NamesOf(a[1..], selected), NamesOf(b, selected);
      assert (a + b)[0] == a[0];
      assert (a + b)[1..] == a[1..] + b;
      assert NamesOf(a + b, selected) == h + (ta + tb);
      assert h + (ta + tb) == (h + ta) + tb;
    }
  }

  /** The names keep the role list's order: listing two runs of roles lists their names one after the other. */
  lemma SelectedNamesAppend(a: seq<Role>, b: seq<Role>, selected: seq<string>)
    ensures SelectedNames(a + b, selected) == SelectedNames(a, selected) + SelectedNames(b, selected)
  {
    NamesOfAppend(a, b, selected);
  }

  const NoNamesText: string := "This action cannot be undone."
  const Ellipsis: string := ", ..."

  /** The bulk-delete dialog's description: up to three names, then ", ..." if there are more. */
  function BulkDeleteDescription(roles: seq<Role>, selected: seq<string>): (d: string)
    ensures var names := SelectedNames(roles, selected);
      && |d| > 0
      && (|names| == 0 ==> d == NoNamesText)
      && (|names| > 0 ==> StartsWith(d, names[0]))
      && (|names| > 1 ==> StartsWith(d, names[0] + ", "))
      && (|names| > 3 ==> EndsWith(d, Ellipsis) && EndsWith(d[..|d| - |Ellipsis|], names[2]))
      && (1 <= |names| <= 3 ==> EndsWith(d, names[|names| - 1]))
      && (|names| == 1 ==> d == names[0])
      && (|names| == 2 ==> d == names[0] + ", " + names[1])
      && (|names| >= 3 ==>
            d == names[0] + ", " + names[1] + ", " + names[2] + (if |names| > 3 then Ellipsis else ""))
  {
    var names := SelectedNames(roles, selected);
    DescribeShape(names);
    DescribeExact(names);
    Describe(names)
  }

  /** The description for a list of names: the first three joined by ", ", the ellipsis, or the fallback. */
  function Describe(names: seq<string>): string {
    var preview := Join(names[..Min(3, |names|)], ", ");
    if |names| > 3 then preview + Ellipsis
    else if preview == "" then NoNamesText
    else preview
  }

  lemma DescribeShape(names: seq<string>)
    requires forall k :: 0 <= k < |names| ==> names[k] != ""
    ensures var d := Describe(names);
      && |d| > 0
      && (|names| == 0 ==> d == NoNamesText)
      && (|names| > 0 ==> StartsWith(d, names[0]))
      && (|names| > 1 ==> StartsWith(d, names[0] + ", "))
      && (|names| > 3 ==> EndsWith(d, Ellipsis) && EndsWith(d[..|d| - |Ellipsis|], names[2]))
      && (1 <= |names| <= 3 ==> EndsWith(d, names[|names| - 1]))
  {
    var shown := names[..Min(3, |names|)];
    var preview := Join(shown, ", ");
    assert |shown| > 0 ==> shown[0] == names[0] && |preview| > 0;
    if |names| > 3 {
      var d := preview + Ellipsis;
      assert d[..|d| - |Ellipsis|] == preview;
      assert d[|d| - |Ellipsis|..] == Ellipsis;
    }
  }

  lemma DescribeExact(names: seq<string>)
    requires forall k :: 0 <= k < |names| ==> names[k] != ""
    ensures var d := Describe(names);
      && (|names| == 1 ==> d == names[0])
      && (|names| == 2 ==> d == names[0] + ", " + names[1])
      && (|names| >= 3 ==>
            d == names[0] + ", " + names[1] + ", " + names[2] + (if |names| > 3 then Ellipsis else ""))
  {
    var shown := names[..Min(3, |names|)];
    if |names| > 0 {
      assert shown[0] == names[0];
      assert |Join(shown, ", ")| > 0;
    }
    if |names| >= 3 {
      assert shown == [names[0], names[1], names[2]];
    } else if |names| == 2 {
      assert shown == [names[0], names[1]];
    }
  }
}

=== FILE: route_guard.dfy ===
/**
 * The page guard of `components/protected-route.tsx`, which wraps every
 * dashboard page. Its effect is a decision over the current path and the
 * auth state, checked in a fixed order: loading, the sign-in page,
 * authentication, the public `/profile` pages, the registry match, the
 * permission test. The router calls become returned `Outcome`s and the
 * `isChecking` state becomes a fold over the successive effect runs.
 */
module RouteGuard {
  import opened Wrappers
  import opened Seqs
  import opened Text
  import opened Permissions
  import opened MenuRoutes

  const SignInPath: string := "/sign-in"
  const NotFoundPath: string := "/not-found"

  /** Paths any authenticated user may open, by raw prefix. */
  const PublicRoutes: seq<string> := ["/profile"]

  /** What one run of the guard's effect does. */
  datatype Outcome =
    | Wait                    // auth still loading: no redirect, state untouched
    | Allow                   // `setIsChecking(false)`
    | Replace(target: string) // `router.replace(target)`

  /** The effect's dependencies: the path and what the auth context reports. */
  datatype GuardInput = GuardInput(
    pathname: string,
    isLoading: bool,
    isAuthenticated: bool,
    permissions: seq<Permission>)

  /** `publicRoutes.some(route => pathname.startsWith(route))`. */
  function IsPublic(pathname: string): (b: bool)
    ensures b <==> StartsWith(pathname, "/profile")
  {
    FindFirst((r: string) => StartsWith(pathname, r), PublicRoutes).Some?
  }

  /** The matcher of the `MENU_ROUTES.find` call: `"/"` by equality, the rest by raw prefix. */
  predicate RouteMatches(route: MenuRoute, pathname: string) {
    || (route.href == RootPath && pathname == RootPath)
    || (route.href != RootPath && StartsWith(pathname, route.href))
  }

  /** Route `i` is the first route of `routes` matching `pathname`. */
  predicate FirstMatchAt(routes: seq<MenuRoute>, pathname: string, i: int) {
    && 0 <= i < |routes|
    && RouteMatches(routes[i], pathname)
    && forall j :: 0 <= j < i ==> !RouteMatches(routes[j], pathname)
  }

  /** `MENU_ROUTES.find(...)`, as an index. */
  function MatchRoute(routes: seq<MenuRoute>, pathname: string): (r: Option<nat>)
    ensures r.Some? ==> FirstMatchAt(routes, pathname, r.value)
    ensures r.Some? ==> forall i :: FirstMatchAt(routes, pathname, i) ==> i == r.value
    ensures r.None? <==> forall i :: 0 <= i < |routes| ==> !RouteMatches(routes[i], pathname)
  {
    var r := FindFirst((route: MenuRoute) => RouteMatches(route, pathname), routes);
    if r.Some? then
      assert FirstMatchAt(routes, pathname, r.value);
      r
    else
      r
  }

  /** The guard's decision against an arbitrary registry `routes`. */
  function DecideIn(routes: seq<MenuRoute>, input: GuardInput): (o: Outcome)
    ensures o == Wait <==> input.isLoading
    ensures o == Allow <==>
      && !input.isLoading
      && (|| input.pathname == SignInPath
          || (&& input.isAuthenticated
              && (|| StartsWith(input.pathname, "/profile")
                  || exists i :: FirstMatchAt(routes, input.pathname, i) &&
                       exists p :: p in routes[i].requiredPermissions && p in input.permissions)))
    ensures o == Replace(SignInPath) <==>
      !input.isLoading && input.pathname != SignInPath && !input.isAuthenticated
    ensures o == Replace(NotFoundPath) <==>
      && !input.isLoading
      && input.pathname != SignInPath
      && input.isAuthenticated
      && !StartsWith(input.pathname, "/profile")
      && forall i :: FirstMatchAt(routes, input.pathname, i) ==>
           !HasAnyPermission(input.permissions, routes[i].requiredPermissions)
    ensures o in {Wait, Allow, Replace(SignInPath), Replace(NotFoundPath)}
  {
    if input.isLoading then Wait
    else if input.pathname == SignInPath then Allow
    else if !input.isAuthenticated then Replace(SignInPath)
    else if IsPublic(input.pathname) then Allow
    else
      match MatchRoute(routes, input.pathname)
      case None => Replace(NotFoundPath)
      case Some(i) =>
        if HasAnyPermission(input.permissions, routes[i].requiredPermissions) then Allow
        else Replace(NotFoundPath)
  }

  /** The guard as mounted: against `MENU_ROUTES`. */
  function Decide(input: GuardInput): (o: Outcome)
    ensures input.pathname == RootPath && !input.isLoading && input.isAuthenticated ==>
      (o == Allow <==> PermissionOf(Dashboard) in input.permissions) &&
      (o != Allow ==> o == Replace(NotFoundPath))
  {
    HomeNeedsDashboard(input);
    DecideIn(Registry, input)
  }

  /** The home page is guarded by the first route alone: it needs the "Dashboard" permission. */
  lemma HomeNeedsDashboard(input: GuardInput)
    ensures input.pathname == RootPath && !input.isLoading && input.isAuthenticated ==>
      (DecideIn(Registry, input) == Allow <==> PermissionOf(Dashboard) in input.permissions) &&
      (DecideIn(Registry, input) != Allow ==> DecideIn(Registry, input) == Replace(NotFoundPath))
  {
    if input.pathname == RootPath && !input.isLoading && input.isAuthenticated {
      assert RootPath != SignInPath;
      assert !StartsWith(RootPath, "/profile");
      assert FirstMatchAt(Registry, RootPath, 0);
      assert MatchRoute(Registry, RootPath) == Some(0);
      assert Registry[0].requiredPermissions == [PermissionOf(Dashboard)];
    }
  }

  /** A matched route whose permission list is empty is denied (`.some` of `[]` is false). */
  lemma EmptyRequirementDenied(routes: seq<MenuRoute>, input: GuardInput, i: nat)
    requires FirstMatchAt(routes, input.pathname, i)
    requires routes[i].requiredPermissions == []
    requires !input.isLoading && input.isAuthenticated
    requires input.pathname != SignInPath && !StartsWith(input.pathname, "/profile")
    ensures DecideIn(routes, input) == Replace(NotFoundPath)
  {
    assert MatchRoute(routes, input.pathname) == Some(i);
  }

  /** One of two paths that are both prefixes of a third is a prefix of the other. */
  lemma PrefixesComparable(a: string, b: string, p: string)
    requires a <= p && b <= p && |a| <= |b|
    ensures a <= b
  {
    assert a == p[..|a|] && b == p[..|b|];
    assert b[..|a|] == a;
  }

  /** In `MENU_ROUTES` a path matches at most one route. */
  lemma RegistryMatchUnique(pathname: string, i: nat, j: nat)
    requires i < |Registry| && j < |Registry|
    requires RouteMatches(Registry[i], pathname) && RouteMatches(Registry[j], pathname)
    ensures i == j
  {
    if i != j {
      RegistryPrefixFree();
      var a, b := Registry[i].href, Registry[j].href;
      if i == 0 || j == 0 {
        assert false;
      } else if |a| <= |b| {
        PrefixesComparable(a, b, pathname);
        assert false;
      } else {
        PrefixesComparable(b, a, pathname);
        assert false;
      }
    }
  }

  /** A path under a registry route's path (other than `"/"`) selects that route. */
  lemma MatchUnderRoute(pathname: string, i: nat)
    requires 1 <= i < |Registry|
    requires StartsWith(pathname, Registry[i].href)
    ensures MatchRoute(Registry, pathname) == Some(i)
  {
    assert RouteMatches(Registry[i], pathname);
    forall j | 0 <= j < i
      ensures !RouteMatches(Registry[j], pathname)
    {
      if RouteMatches(Registry[j], pathname) {
        RegistryMatchUnique(pathname, i, j);
      }
    }
    assert FirstMatchAt(Registry, pathname, i);
  }

  /**
   * Matching is not segment-aware: `/settingsX` is treated as a page of
   * `/settings` and allowed to a user holding "Settings".
   */
  lemma RawPrefixMatch()
    ensures MatchRoute(Registry, "/settingsX") == Some(8)
  {
    SettingsXUnderSettings();
    MatchUnderRoute("/settingsX", 8);
  }

  /** ... and a user holding "Settings" is let through to it. */
  lemma RawPrefixAllowed()
    ensures Decide(GuardInput("/settingsX", false, true, ["Settings"])) == Allow
  {
    var path := "/settingsX";
    RawPrefixMatch();
    SettingsXNotPublic();
    assert |path| != |SignInPath|;
    SettingsRoute();
    MatchedRouteDecides(Registry, GuardInput(path, false, true, ["Settings"]), 8);
  }

  /** Past the earlier checks, the first matching route's permissions decide. */
  lemma MatchedRouteDecides(routes: seq<MenuRoute>, input: GuardInput, i: nat)
    requires MatchRoute(routes, input.pathname) == Some(i)
    requires !input.isLoading && input.isAuthenticated
    requires input.pathname != SignInPath && !StartsWith(input.pathname, "/profile")
    ensures DecideIn(routes, input) ==
      if HasAnyPermission(input.permissions, routes[i].requiredPermissions) then Allow else Replace(NotFoundPath)
  {
  }

  lemma SettingsXUnderSettings()
    ensures StartsWith("/settingsX", Registry[8].href)
  {
    var path := "/settingsX";
    SettingsRoute();
    assert path[..9] == "/settings";
  }

  lemma SettingsXNotPublic()
    ensures !StartsWith("/settingsX", "/profile")
  {
    MismatchNotPrefix("/settingsX", "/profile", 1);
  }

  /** `"/"` is matched by the home route only when the path is exactly `"/"`. */
  lemma RootMatchesOnlyItself(pathname: string)
    ensures RouteMatches(Registry[0], pathname) <==> pathname == RootPath
  {
  }

  /** A small two-route registry for worked examples. */
  const TwoRoutes: seq<MenuRoute> := [
    MenuRoute("Dashboard", "/", ["Dashboard"]),
    MenuRoute("Users Management", "/users-management", ["Users"])]

  /** While loading the guard waits; a signed-out user is sent to sign-in. */
  lemma TwoRouteEarlyExits()
    ensures DecideIn(TwoRoutes, GuardInput("/users-management", true, false, [])) == Wait
    ensures DecideIn(TwoRoutes, GuardInput("/users-management", false, false, [])) == Replace(SignInPath)
  {
  }

  /** A page below a route's path is allowed with that route's permission. */
  lemma TwoRouteSubpathAllowed()
    ensures DecideIn(TwoRoutes, GuardInput("/users-management/42", false, true, ["Users"])) == Allow
  {
    assert FirstMatchAt(TwoRoutes, "/users-management/42", 1);
    MismatchNotPrefix("/users-management/42", "/profile", 1);
  }

  /** The wrong permission, or a path no route matches, leads to not-found. */
  lemma TwoRouteDenials()
    ensures DecideIn(TwoRoutes, GuardInput("/users-management", false, true, ["Dashboard"])) == Replace(NotFoundPath)
    ensures DecideIn(TwoRoutes, GuardInput("/does-not-exist", false, true, [])) == Replace(NotFoundPath)
  {
    assert FirstMatchAt(TwoRoutes, "/users-management", 1);
    MismatchNotPrefix("/users-management", "/profile", 1);
    MismatchNotPrefix("/does-not-exist", "/profile", 1);
    MismatchNotPrefix("/does-not-exist", TwoRoutes[1].href, 1);
  }

  /** One effect run's update of `isChecking`: only an Allow clears it. */
  function Step(checking: bool, input: GuardInput): (c: bool)
    ensures c ==> checking
    ensures input.isLoading ==> c == checking
    ensures !input.isLoading && input.pathname == SignInPath ==> !c
    ensures !input.isLoading && input.pathname != SignInPath && !input.isAuthenticated ==> c == checking
  {
    checking && Decide(input) != Allow
  }

  /** `isChecking` after the effect has run on each of `inputs` in turn. */
  function Run(checking: bool, inputs: seq<GuardInput>): (c: bool)
    ensures c ==> checking
    ensures |inputs| > 0 && Decide(inputs[0]) == Allow ==> !c
    decreases |inputs|
  {
    if |inputs| == 0 then checking else Run(Step(checking, inputs[0]), inputs[1..])
  }

  /** Once cleared, `isChecking` is never set back. */
  lemma {:induction false} NeverRechecks(inputs: seq<GuardInput>)
    ensures !Run(false, inputs)
    decreases |inputs|
  {
    if |inputs| > 0 {
      NeverRechecks(inputs[1..]);
    }
  }

  /** Starting from `true`, `isChecking` stays set exactly until some run allows. */
  lemma {:induction false} CheckingUntilAllowed(inputs: seq<GuardInput>)
    ensures Run(true, inputs) <==> forall i :: 0 <= i < |inputs| ==> Decide(inputs[i]) != Allow
    decreases |inputs|
  {
    if |inputs| > 0 {
      if Decide(inputs[0]) == Allow {
        NeverRechecks(inputs[1..]);
      } else {
        CheckingUntilAllowed(inputs[1..]);
        assert forall i :: 1 <= i < |inputs| ==> inputs[i] == inputs[1..][i - 1];
      }
    }
  }

  /** The guard renders its children exactly when `isChecking` is false. */
  function RendersChildren(checking: bool): bool {
    !checking
  }

  /** Mounted with `isChecking` set, the guard shows its children once some effect run has allowed. */
  lemma ChildrenShownOnceAllowed(inputs: seq<GuardInput>)
    ensures RendersChildren(Run(true, inputs)) <==>
      exists i :: 0 <= i < |inputs| && Decide(inputs[i]) == Allow
  {
    CheckingUntilAllowed(inputs);
  }
}

=== FILE: seqs.dfy ===
/**
 * Order-preserving list operations shared by the permission checks, the
 * route registry and the table selections: `Array.prototype.filter`,
 * `Array.prototype.find`, the checkbox toggles and the insertion-ordered
 * de-duplication of `Array.from(new Set(xs))`.
 */
module Seqs {
  import opened Wrappers

  /** `a` is obtained from `b` by deleting elements, keeping their order. */
  predicate IsSubseq<T(==,!new)>(a: seq<T>, b: seq<T>)
    decreases |b|
  {
    |a| <= |b| &&
    (|a| == 0 || (a[0] == b[0] && IsSubseq(a[1..], b[1..])) || IsSubseq(a, b[1..]))
  }

  /** No element occurs twice. */
  predicate NoDup<T(==,!new)>(s: seq<T>) {
    forall i, j :: 0 <= i < j < |s| ==> s[i] != s[j]
  }

  /** How many times `x` occurs in `s`. */
  function Count<T(==)>(s: seq<T>, x: T): nat {
    if |s| == 0 then 0 else (if s[0] == x then 1 else 0) + Count(s[1..], x)
  }

  /** Counts add up over a concatenation. */
  lemma {:induction false} CountAppend<T>(a: seq<T>, b: seq<T>, x: T)
    ensures Count(a + b, x) == Count(a, x) + Count(b, x)
  {
    if |a| == 0 {
      assert a + b == b;
    } else {
      CountAppend(a[1..], b, x);
      assert (a + b)[1..] == a[1..] + b;
    }
  }

  /** `Count` is the multiplicity of the element in the list's multiset. */
  lemma {:induction false} CountIsMultiplicity<T>(s: seq<T>, x: T)
    ensures Count(s, x) == multiset(s)[x]
  {
    if |s| > 0 {
      CountIsMultiplicity(s[1..], x);
      assert s == [s[0]] + s[1..];
      assert multiset(s) == multiset([s[0]]) + multiset(s[1..]);
    }
  }

  /** `s.filter(p)`: the elements satisfying `p`, in their original order. */
  function Filter<T(==,!new)>(p: T -> bool, s: seq<T>): (r: seq<T>)
    ensures IsSubseq(r, s)
    ensures forall x :: x in r <==> x in s && p(x)
    ensures |r| == |s| <==> forall i :: 0 <= i < |s| ==> p(s[i])
    ensures (forall i :: 0 <= i < |s| ==> p(s[i])) ==> r == s
  {
    if |s| == 0 then []
    else
      var rest := Filter(p, s[1..]);
      if p(s[0]) then
        assert ([s[0]] + rest)[1..] == rest;
        assert s == [s[0]] + s[1..];
        [s[0]] + rest
      else
        rest
  }

  /** A passing element is kept as many times as it occurs; a failing one not at all. */
  lemma {:induction false} FilterCount<T(!new)>(p: T -> bool, s: seq<T>, x: T)
    ensures Count(Filter(p, s), x) == if p(x) then Count(s, x) else 0
    decreases |s|
  {
    if |s| > 0 {
      FilterCount(p, s[1..], x);
      var rest := Filter(p, s[1..]);
      if p(s[0]) {
        assert ([s[0]] + rest)[1..] == rest;
      }
    }
  }

  /** `s.findIndex(p)`: the index of the first element satisfying `p`. */
  function FindFirst<T>(p: T -> bool, s: seq<T>): (r: Option<nat>)
    ensures r.Some? ==> r.value < |s| && p(s[r.value])
    ensures r.Some? ==> forall j :: 0 <= j < r.value ==> !p(s[j])
    ensures r.None? <==> forall j :: 0 <= j < |s| ==> !p(s[j])
  {
    if |s| == 0 then None
    else if p(s[0]) then Some(0)
    else
      match FindFirst(p, s[1..])
      case None => None
      case Some(k) => Some(k + 1)
  }

  /** The head of a filtered list is the first element that satisfies the filter. */
  lemma {:induction false} FilterHeadIsFirst<T(!new)>(p: T -> bool, s: seq<T>)
    ensures |Filter(p, s)| > 0 <==> FindFirst(p, s).Some?
    ensures FindFirst(p, s).Some? ==> Filter(p, s)[0] == s[FindFirst(p, s).value]
  {
    if |s| > 0 {
      var x, t := s[0], s[1..];
      assert s == [x] + t;
      FilterCons(p, x, t);
      if p(x) {
        assert FindFirst(p, s) == Some(0);
        assert Filter(p, s)[0] == x;
      } else {
        FilterHeadIsFirst(p, t);
        assert Filter(p, s) == [] + Filter(p, t) == Filter(p, t);
        var f := FindFirst(p, t);
        if f.Some? {
          assert FindFirst(p, s) == Some(f.value + 1);
          assert s[1..][f.value] == s[f.value + 1];
        } else {
          assert FindFirst(p, s) == None;
        }
      }
    }
  }

  /** Filtering with a weaker predicate keeps a super-sequence. */
  lemma {:induction false} FilterMonotone<T(!new)>(p: T -> bool, q: T -> bool, s: seq<T>)
    requires forall x :: x in s && p(x) ==> q(x)
    ensures IsSubseq(Filter(p, s), Filter(q, s))
  {
    if |s| > 0 {
      FilterMonotone(p, q, s[1..]);
      var fp, fq := Filter(p, s[1..]), Filter(q, s[1..]);
      if q(s[0]) {
        assert ([s[0]] + fq)[1..] == fq;
        if p(s[0]) {
          assert ([s[0]] + fp)[1..] == fp;
        }
      }
    }
  }

  /** Filtering distributes over concatenation. */
  lemma {:induction false} FilterAppend<T(!new)>(p: T -> bool, a: seq<T>, b: seq<T>)
    ensures Filter(p, a + b) == Filter(p, a) + Filter(p, b)
  {
    if |a| == 0 {
      assert a + b == b;
    } else {
      var x, t := a[0], a[1..];
      FilterAppend(p, t, b);
      FilterCons(p, x, t + b);
      FilterCons(p, x, t);
      ConsAppend(x, t, b);
      assert a == [x] + t;
      var h: seq<T> := if p(x) then [x] else [];
      ConcatAssoc(h, Filter(p, t), Filter(p, b));
    }
  }

  /** `Filter` of a list built from a head and a tail. */
  lemma FilterCons<T(!new)>(p: T -> bool, x: T, t: seq<T>)
    ensures Filter(p, [x] + t) == (if p(x) then [x] else []) + Filter(p, t)
  {
    var s := [x] + t;
    assert s[0] == x && s[1..] == t;
  }

  lemma ConsAppend<T>(x: T, t: seq<T>, b: seq<T>)
    ensures [x] + t + b == [x] + (t + b)
  {
  }

  lemma ConcatAssoc<T>(x: seq<T>, y: seq<T>, z: seq<T>)
    ensures x + (y + z) == x + y + z
  {
  }

  /** Filtering a duplicate-free list leaves it duplicate-free. */
  lemma {:induction false} FilterNoDup<T(!new)>(p: T -> bool, s: seq<T>)
    ensures NoDup(s) ==> NoDup(Filter(p, s))
  {
    if |s| > 0 && NoDup(s) {
      FilterNoDup(p, s[1..]);
      var rest := Filter(p, s[1..]);
      if p(s[0]) {
        assert s[0] !in s[1..];
        var r := [s[0]] + rest;
        forall i, j | 0 <= i < j < |r|
          ensures r[i] != r[j]
        {
          if i == 0 {
            assert r[j] in rest;
          }
        }
      }
    }
  }

  /** `s.filter(y => y !== x)`: every occurrence of `x` removed. */
  function Remove<T(==,!new)>(s: seq<T>, x: T): (r: seq<T>)
    ensures x !in r
    ensures forall y :: y != x ==> (y in r <==> y in s)
    ensures forall y :: y != x ==> Count(r, y) == Count(s, y)
    ensures Count(r, x) == 0
    ensures IsSubseq(r, s)
    ensures x !in s ==> r == s
    ensures NoDup(s) ==> NoDup(r)
  {
    var keep := (y: T) => y != x;
    FilterNoDup(keep, s);
    forall y ensures Count(Filter(keep, s), y) == if y != x then Count(s, y) else 0 {
      FilterCount(keep, s, y);
    }
    Filter(keep, s)
  }

  /** Checkbox toggle: remove `x` when present, otherwise append it. */
  function Toggle<T(==,!new)>(s: seq<T>, x: T): (r: seq<T>)
    ensures x in r <==> x !in s
    ensures forall y :: y != x ==> (y in r <==> y in s)
    ensures forall y :: y != x ==> Count(r, y) == Count(s, y)
    ensures x in s ==> Count(r, x) == 0
    ensures x !in s ==> |r| == |s| + 1 && r[..|s|] == s
    ensures x in s ==> IsSubseq(r, s)
    ensures NoDup(s) ==> NoDup(r)
  {
    if x in s then Remove(s, x)
    else
      assert forall y :: Count(s + [x], y) == Count(s, y) + (if x == y then 1 else 0) by {
        forall y
          ensures Count(s + [x], y) == Count(s, y) + (if x == y then 1 else 0)
        {
          CountAppend(s, [x], y);
          assert [x][1..] == [];
        }
      }
      s + [x]
  }

  /** Removing an element that was just appended to a list without it restores the list. */
  lemma RemoveAppended<T(!new)>(s: seq<T>, x: T)
    requires x !in s
    ensures Remove(s + [x], x) == s
  {
    var keep := (y: T) => y != x;
    FilterAppend(keep, s, [x]);
    assert Filter(keep, [x]) == [];
  }

  /** Toggling an absent element on and off again restores the list. */
  lemma ToggleTwice<T(!new)>(s: seq<T>, x: T)
    requires x !in s
    ensures Toggle(Toggle(s, x), x) == s
  {
    RemoveAppended(s, x);
  }

  /**
   * Appends the elements of `s` not already present, in order of first
   * occurrence: the insertion order of a JavaScript `Set`.
   */
  function AddNew<T(==,!new)>(acc: seq<T>, s: seq<T>): (r: seq<T>)
    ensures acc <= r
    ensures forall x :: x in r <==> x in acc || x in s
    ensures NoDup(acc) ==> NoDup(r)
    decreases |s|
  {
    if |s| == 0 then acc
    else if s[0] in acc then AddNew(acc, s[1..])
    else AddNew(acc + [s[0]], s[1..])
  }

  /** `Array.from(new Set(s))`: each element once, in order of first occurrence. */
  function Dedup<T(==,!new)>(s: seq<T>): (r: seq<T>)
    ensures NoDup(r)
    ensures forall x :: x in r <==> x in s
    ensures forall i, j :: 0 <= i < j < |r| ==>
      r[i] in s && r[j] in s && FirstIndex(s, r[i]) < FirstIndex(s, r[j])
    ensures NoDup(s) ==> r == s
  {
    DedupOrder(s);
    DedupOfDistinct(s);
    AddNew([], s)
  }

  /** The position of the first occurrence of `x` in `s`. */
  function FirstIndex<T(==)>(s: seq<T>, x: T): (i: nat)
    requires x in s
    ensures i < |s| && s[i] == x
    ensures forall j :: 0 <= j < i ==> s[j] != x
  {
    if s[0] == x then 0 else 1 + FirstIndex(s[1..], x)
  }

  /** What `AddNew` appends is new, drawn from `s`, and in order of first occurrence in `s`. */
  lemma {:induction false} AddNewOrder<T(!new)>(acc: seq<T>, s: seq<T>)
    ensures var r := AddNew(acc, s);
      && (forall k :: |acc| <= k < |r| ==> r[k] !in acc && r[k] in s)
      && (forall i, j :: |acc| <= i < j < |r| ==>
            r[i] in s && r[j] in s && FirstIndex(s, r[i]) < FirstIndex(s, r[j]))
    decreases |s|
  {
    if |s| > 0 {
      var r := AddNew(acc, s);
      var acc' := if s[0] in acc then acc else acc + [s[0]];
      assert r == AddNew(acc', s[1..]);
      AddNewOrder(acc', s[1..]);
      forall k | |acc'| <= k < |r|
        ensures r[k] in s[1..] && r[k] != s[0]
        ensures FirstIndex(s, r[k]) == 1 + FirstIndex(s[1..], r[k])
      {
        assert r[k] !in acc';
        if s[0] !in acc {
          assert acc'[|acc|] == s[0];
        }
      }
      if s[0] !in acc {
        assert r[|acc|] == acc'[|acc|] == s[0];
      }
    }
  }

  /** De-duplication lists the elements in the order of their first occurrence. */
  lemma DedupOrder<T(!new)>(s: seq<T>)
    ensures forall i, j :: 0 <= i < j < |AddNew([], s)| ==>
      AddNew([], s)[i] in s && AddNew([], s)[j] in s &&
      FirstIndex(s, AddNew([], s)[i]) < FirstIndex(s, AddNew([], s)[j])
  {
    var e: seq<T> := [];
    var r := AddNew(e, s);
    forall i, j | 0 <= i < j < |r|
      ensures r[i] in s && r[j] in s && FirstIndex(s, r[i]) < FirstIndex(s, r[j])
    {
      AddNewOrderAt(e, s, i, j);
    }
  }

  lemma AddNewOrderAt<T(!new)>(acc: seq<T>, s: seq<T>, i: nat, j: nat)
    requires |acc| <= i < j < |AddNew(acc, s)|
    ensures AddNew(acc, s)[i] in s && AddNew(acc, s)[j] in s
    ensures FirstIndex(s, AddNew(acc, s)[i]) < FirstIndex(s, AddNew(acc, s)[j])
  {
    AddNewOrder(acc, s);
  }

  /** A list without duplicates is its own de-duplication. */
  lemma DedupOfDistinct<T(!new)>(s: seq<T>)
    ensures NoDup(s) ==> AddNew([], s) == s
  {
    if NoDup(s) {
      assert [] + s == s;
      AddNewFresh([], s);
    }
  }

  /** Adding a concatenation is adding its halves one after the other. */
  lemma {:induction false} AddNewAppend<T(!new)>(acc: seq<T>, a: seq<T>, b: seq<T>)
    ensures AddNew(acc, a + b) == AddNew(AddNew(acc, a), b)
    decreases |a|
  {
    if |a| == 0 {
      assert a + b == b;
    } else {
      assert (a + b)[0] == a[0];
      assert (a + b)[1..] == a[1..] + b;
      if a[0] in acc {
        AddNewAppend(acc, a[1..], b);
      } else {
        AddNewAppend(acc + [a[0]], a[1..], b);
      }
    }
  }

  /** Adding elements that are all new and distinct just appends them. */
  lemma {:induction false} AddNewFresh<T(!new)>(acc: seq<T>, s: seq<T>)
    requires NoDup(acc + s)
    ensures AddNew(acc, s) == acc + s
    decreases |s|
  {
    if |s| > 0 {
      assert (acc + s)[|acc|] == s[0];
      assert s[0] !in acc by {
        forall i | 0 <= i < |acc|
          ensures acc[i] != s[0]
        {
          assert (acc + s)[i] == acc[i];
        }
      }
      assert acc + [s[0]] + s[1..] == acc + s;
      AddNewFresh(acc + [s[0]], s[1..]);
    }
  }

  /**
   * De-duplicating `prev + more` when `prev` is already duplicate-free keeps
   * `prev` as it is and appends the new elements of `more`.
   */
  lemma DedupExtends<T(!new)>(prev: seq<T>, more: seq<T>)
    requires NoDup(prev)
    ensures Dedup(prev + more) == AddNew(prev, more)
  {
    AddNewAppend([], prev, more);
    assert [] + prev == prev;
    AddNewFresh([], prev);
  }

  /** A duplicate-free list has as many distinct elements as it has elements. */
  lemma {:induction false} NoDupCard<T(!new)>(s: seq<T>)
    requires NoDup(s)
    ensures |set x | x in s| == |s|
  {
    if |s| > 0 {
      NoDupCard(s[1..]);
      assert s[0] !in s[1..];
      assert (set x | x in s) == (set x | x in s[1..]) + {s[0]};
    }
  }
}

=== FILE: text.dfy ===
/**
 * The string operations the tables and dialogs rely on: `toLowerCase`
 * (ASCII letters only), `includes`, `startsWith`, `trim` (ASCII white
 * space only), `join` and decimal rendering of a count.
 */
module Text {

  /** `s.startsWith(prefix)`. */
  predicate StartsWith(s: string, prefix: string) {
    prefix <= s
  }

  /** `s.endsWith(suffix)`. */
  predicate EndsWith(s: string, suffix: string) {
    |suffix| <= |s| && s[|s| - |suffix|..] == suffix
  }

  /** Whatever a string ends with, it still ends with after a prefix is put in front. */
  lemma EndsWithExtend(pre: string, s: string, suffix: string)
    requires EndsWith(s, suffix)
    ensures EndsWith(pre + s, suffix)
  {
    assert (pre + s)[|pre + s| - |suffix|..] == s[|s| - |suffix|..];
  }

  /** A string put together from three pieces starts with the first, holds the second after it, and ends with the third. */
  lemma Framed(pre: string, mid: string, post: string)
    ensures StartsWith(pre + mid + post, pre)
    ensures OccursAt(pre + mid + post, mid, |pre|)
    ensures EndsWith(pre + mid + post, post)
  {
    var t := pre + mid + post;
    assert t[..|pre|] == pre;
    assert t[|pre|..|pre| + |mid|] == mid;
    assert t[|t| - |post|..] == post;
  }

  /** A mismatch at a shared position rules out a prefix. */
  lemma MismatchNotPrefix(s: string, prefix: string, k: nat)
    requires k < |s| && k < |prefix| && s[k] != prefix[k]
    ensures !StartsWith(s, prefix)
  {
  }

  function LowerChar(c: char): (d: char)
    ensures 'A' <= c <= 'Z' ==> d as int == c as int + 32
    ensures !('A' <= c <= 'Z') ==> d == c
  {
    if 'A' <= c <= 'Z' then (c as int + 32) as char else c
  }

  /** `s.toLowerCase()` restricted to the ASCII letters. */
  function Lower(s: string): (r: string)
    ensures |r| == |s|
    ensures forall i :: 0 <= i < |s| ==> r[i] == LowerChar(s[i])
    ensures forall i :: 0 <= i < |r| ==> !('A' <= r[i] <= 'Z')
  {
    seq(|s|, i requires 0 <= i < |s| => LowerChar(s[i]))
  }

  /** `needle` occurs in `hay` starting at index `i`. */
  predicate OccursAt(hay: string, needle: string, i: int) {
    0 <= i && i + |needle| <= |hay| && hay[i..i + |needle|] == needle
  }

  /** A run of `s` away from its head is the same run of `s[1..]`, one place earlier. */
  lemma SliceOfTail(s: string, i: nat, n: nat)
    requires 1 <= i && i + n <= |s|
    ensures s[i..i + n] == s[1..][i - 1..i - 1 + n]
  {
    var t := s[1..];
    var run, shifted := s[i..i + n], t[i - 1..i - 1 + n];
    forall k | 0 <= k < n
      ensures run[k] == shifted[k]
    {
      assert t[i - 1 + k] == s[i + k];
    }
  }

  /** `hay.includes(needle)`: a contiguous occurrence exists; the empty string occurs everywhere. */
  function Includes(hay: string, needle: string): (b: bool)
    ensures b <==> exists i :: OccursAt(hay, needle, i)
    decreases |hay|
  {
    if needle <= hay then
      assert OccursAt(hay, needle, 0);
      true
    else if |hay| == 0 then
      assert forall i :: !OccursAt(hay, needle, i);
      false
    else
      var rest := Includes(hay[1..], needle);
      assert forall i :: OccursAt(hay[1..], needle, i) ==> OccursAt(hay, needle, i + 1) by {
        forall i | OccursAt(hay[1..], needle, i)
          ensures OccursAt(hay, needle, i + 1)
        {
          SliceOfTail(hay, i + 1, |needle|);
        }
      }
      assert forall i :: OccursAt(hay, needle, i) ==> i == 0 || OccursAt(hay[1..], needle, i - 1) by {
        forall i | OccursAt(hay, needle, i) && i != 0
          ensures OccursAt(hay[1..], needle, i - 1)
        {
          SliceOfTail(hay, i, |needle|);
        }
      }
      rest
  }

  /** The empty search string is found in every string. */
  lemma IncludesEmpty(hay: string)
    ensures Includes(hay, "")
  {
    assert OccursAt(hay, "", 0);
  }

  /** The characters JavaScript's `trim` removes, restricted to ASCII. */
  predicate IsSpace(c: char) {
    c == ' ' || c == '\t' || c == '\n' || c == '\r' || c == '\U{B}' || c == '\U{C}'
  }

  predicate AllSpace(s: string) {
    forall i :: 0 <= i < |s| ==> IsSpace(s[i])
  }

  /** Number of leading white-space characters. */
  function LeadingSpaces(s: string): (k: nat)
    ensures k <= |s|
    ensures AllSpace(s[..k])
    ensures k < |s| ==> !IsSpace(s[k])
  {
    if |s| == 0 || !IsSpace(s[0]) then 0
    else
      var k := 1 + LeadingSpaces(s[1..]);
      assert forall i :: 1 <= i < k ==> s[..k][i] == s[1..][..k - 1][i - 1];
      k
  }

  /** Number of trailing white-space characters. */
  function TrailingSpaces(s: string): (k: nat)
    ensures k <= |s|
    ensures AllSpace(s[|s| - k..])
    ensures k < |s| ==> !IsSpace(s[|s| - k - 1])
  {
    if |s| == 0 || !IsSpace(s[|s| - 1]) then 0
    else
      var init := s[..|s| - 1];
      var k := 1 + TrailingSpaces(init);
      assert s[|s| - k..] == init[|init| - (k - 1)..] + [s[|s| - 1]];
      k
  }

  /** `s.trim()`. */
  function Trim(s: string): (r: string)
    ensures |r| == 0 <==> AllSpace(s)
    ensures |r| > 0 ==> !IsSpace(r[0]) && !IsSpace(r[|r| - 1])
    ensures exists a :: OccursAt(s, r, a) && AllSpace(s[..a]) && AllSpace(s[a + |r|..])
    ensures |s| > 0 && !IsSpace(s[0]) && !IsSpace(s[|s| - 1]) ==> r == s
  {
    var a := LeadingSpaces(s);
    var k := TrailingSpaces(s[a..]);
    TrimAround(s, a, k);
    TrimEmpty(s, a, k);
    s[a..][..|s| - a - k]
  }

  /** The trimmed text sits in the input with only white space around it. */
  lemma TrimAround(s: string, a: nat, k: nat)
    requires a == LeadingSpaces(s) && k == TrailingSpaces(s[a..])
    ensures a + k <= |s|
    ensures var r := s[a..][..|s| - a - k];
      && OccursAt(s, r, a) && AllSpace(s[..a]) && AllSpace(s[a + |r|..])
      && (|r| > 0 ==> !IsSpace(r[0]) && !IsSpace(r[|r| - 1]))
      && (|s| > 0 && !IsSpace(s[0]) && !IsSpace(s[|s| - 1]) ==> r == s)
  {
    var rest := s[a..];
    var r := rest[..|rest| - k];
    assert s[a + |r|..] == rest[|rest| - k..];
    assert OccursAt(s, r, a);
  }

  /** Trimming leaves nothing exactly when the input is all white space. */
  lemma TrimEmpty(s: string, a: nat, k: nat)
    requires a == LeadingSpaces(s) && k == TrailingSpaces(s[a..])
    ensures a + k == |s| <==> AllSpace(s)
  {
    if a + k == |s| {
      forall i | 0 <= i < |s|
        ensures IsSpace(s[i])
      {
        assert s[..a][i] == s[i];
      }
    }
  }

  /** `parts.join(sep)`. */
  function Join(parts: seq<string>, sep: string): (r: string)
    ensures |parts| > 0 ==> parts[0] <= r
    ensures |parts| > 1 ==> parts[0] + sep <= r
    ensures |parts| > 0 ==> EndsWith(r, parts[|parts| - 1])
    ensures |parts| == 0 ==> r == ""
    ensures |parts| == 1 ==> r == parts[0]
    ensures |parts| == 2 ==> r == parts[0] + sep + parts[1]
    ensures |parts| == 3 ==> r == parts[0] + sep + parts[1] + sep + parts[2]
  {
    if |parts| == 0 then ""
    else if |parts| == 1 then
      assert parts[0][|parts[0]| - |parts[0]|..] == parts[0];
      parts[0]
    else
      var rest := Join(parts[1..], sep);
      EndsWithExtend(parts[0] + sep, rest, parts[|parts| - 1]);
      parts[0] + sep + rest
  }

  /** `parts.join(sep)` grows by one separator and one part per appended part. */
  lemma {:induction false} JoinSnoc(parts: seq<string>, p: string, sep: string)
    requires |parts| > 0
    ensures Join(parts + [p], sep) == Join(parts, sep) + sep + p
    decreases |parts|
  {
    if |parts| == 1 {
      assert parts + [p] == [parts[0], p];
    } else {
      assert (parts + [p])[1..] == parts[1..] + [p];
      JoinSnoc(parts[1..], p, sep);
    }
  }

  function DigitChar(d: nat): (c: char)
    requires d < 10
    ensures '0' <= c <= '9'
    ensures c as int - '0' as int == d
  {
    ('0' as int + d) as char
  }

  predicate AllDigits(s: string) {
    forall i :: 0 <= i < |s| ==> '0' <= s[i] <= '9'
  }

  /** The number a string of decimal digits denotes (the inverse of `NatToString`). */
  function DecValue(s: string): nat
    requires AllDigits(s)
  {
    if |s| == 0 then 0
    else DecValue(s[..|s| - 1]) * 10 + (s[|s| - 1] as int - '0' as int)
  }

  /** Decimal rendering of `n`, as in a template literal `${n}`: no leading zero. */
  function NatToString(n: nat): (r: string)
    ensures |r| > 0
    ensures AllDigits(r)
    ensures (|r| == 1) <==> n < 10
    ensures DecValue(r) == n
    ensures |r| > 1 ==> r[0] != '0'
  {
    if n < 10 then [DigitChar(n)]
    else
      var hi := NatToString(n / 10);
      var r := hi + [DigitChar(n % 10)];
      assert r[..|r| - 1] == hi;
      assert r[0] == hi[0];
      r
  }
}

=== FILE: wrappers.dfy ===
/** Optional values: the model's stand-in for `undefined` and for "not found". */
module Wrappers {

  datatype Option<+T> = None | Some(value: T) {

    /** The wrapped value, or `default` when there is none. */
    function GetOr(default: T): T {
      match this
      case Some(v) => v
      case None => default
    }
  }
}
